=== FILE: README.md ===
# B-cell FNA classification engine, modelled in Dafny

The engine reads a table of pairwise sequence comparisons. Each row compares a
"first" sequence observation with a "second" one and records their identity,
a global alignment score, the wells, the donors, the cell types, the first
sequence's read support and both epitope annotations. The engine partitions
the table by `1st_sequence_id` and classifies each group:

1. Among the qualifying rows (identity >= 99 and global > threshold) whose two
   wells are equal, it drops every row whose read support is strictly below the
   maximum of its well. Rows tied at the maximum all survive.
2. Subset members (rows whose first cell type is the configured subset,
   `Bcell` by default) get `unique_within_fna`. The label is "no" when some
   surviving row matches the subset on both sides with identity exactly 100
   and a passing global score, and "yes" otherwise.
3. Every qualifying survivor gets the same `cross_donor_fna`:
   - "no" when all of them compare a donor with itself;
   - "yes" when none does;
   - "yes and no" otherwise.
4. Every qualifying survivor gets the same `cross_epitope_fna`:
   - Epitopes are normalised: trimmed, and a blank or missing value becomes "empty".
   - The canonical first epitope is the first distinct normalised value.
   - The tri-state rule compares it with each normalised second epitope.
   - A group whose "no" comes from both sides being "empty" is counted.

The table-level driver then:
- sums the removed-row and empty-epitope counters over the groups;
- renames the three label columns with the suffix `_<subset>` (`_all` for an
  empty subset name);
- writes the labels back into the subset rows of the full table.

Modules:
- `Records`: the row, configuration and label types, and the similarity masks.
- `Text`: whitespace stripping and first-appearance distinct values.
- `Dedup`: the same-well reducer.
  - It has a source-shaped definition (well subgroup size and maximum).
  - It has a reference definition (a row is dropped when another qualifying
    same-well row of its well has more reads).
  - `KeepRowsIsUnranked` proves the two equal.
- `Classify`: the per-group classifier.
- `Table`: the partition, the fold, the column names and the merge.
- `Scenarios`: properties proved on concrete groups and tables.

Missing cells are `Option` values, and a missing value never equals anything.
Scores are `real` and read counts are `int`.

## Model

| member | source | states |
|---|---|---|
| `Records.LabelText` | module011_2_fna_unique_cross_classifcation_Bcell.py:83-88 | every label is written as one of the three texts "yes", "no", "yes and no"; which text each flag pattern gets is `Classify.TriStateText` |
| `Records.LabelTextInjective` | module011_2_fna_unique_cross_classifcation_Bcell.py:83-88 | different labels are written as different texts, so a written text determines its label |
| `Records.Matches` | module011_2_fna_unique_cross_classifcation_Bcell.py:41-42 | two cells match when both are present and equal, so a missing value never matches; `Records.MissingNeverMatches` states this for wells and donors |
| `Records.Qualifying` | module011_2_fna_unique_cross_classifcation_Bcell.py:37-39 | a row qualifies when its identity is at least 99 (inclusive) and its global score is strictly above the threshold; `Records.IdenticalMatchIsQualifying` pins both bounds |
| `Records.SameWell` | module011_2_fna_unique_cross_classifcation_Bcell.py:41 | the two wells are both present and equal; `Records.MissingNeverMatches` states that a missing well never matches |
| `Records.SameDonor` | module011_2_fna_unique_cross_classifcation_Bcell.py:42 | the two donors are both present and equal; `Records.MissingNeverMatches` states that a missing donor never matches |
| `Records.SubsetMember` | module011_2_fna_unique_cross_classifcation_Bcell.py:59 | the first cell type is present and equals the configured subset; `Classify.LabelGroupSpec` states that exactly these rows carry the uniqueness label |
| `Records.IdenticalSubsetMatch` | module011_2_fna_unique_cross_classifcation_Bcell.py:60-64 | both cell types are the subset, the identity is exactly 100 and the global score passes; `Records.IdenticalMatchIsQualifying` and `Scenarios.UniqueNeedsExactly100` pin the exact-100 test |
| `Records.IdenticalMatchIsQualifying` | module011_2_fna_unique_cross_classifcation_Bcell.py:37-64 | an identical subset match (identity == 100) is always qualifying; identity exactly 99 qualifies but is not identical; a global score equal to the threshold passes neither test (strict bound) |
| `Records.MissingNeverMatches` | module011_2_fna_unique_cross_classifcation_Bcell.py:41-42 | a missing well or donor on either side makes the row neither same-well nor same-donor |
| `Text.StripLeft` | module011_2_fna_unique_cross_classifcation_Bcell.py:99 | the result is a suffix of the input, everything cut off is whitespace, and it does not start with whitespace |
| `Text.StripRight` | module011_2_fna_unique_cross_classifcation_Bcell.py:99 | the result is a prefix of the input, everything cut off is whitespace, and it does not end with whitespace |
| `Text.Trim` | module011_2_fna_unique_cross_classifcation_Bcell.py:99 | strip on both sides; `Text.TrimIsInnerSlice` fixes it as the inner slice with only whitespace cut on each side, and `Text.TrimEmptyIffAllSpace` fixes when it is empty |
| `Text.TrimIsInnerSlice` | module011_2_fna_unique_cross_classifcation_Bcell.py:99 | stripping keeps a contiguous slice of the input, removes only whitespace on both sides, and a non-empty result starts and ends with non-whitespace |
| `Text.TrimFixesTrimmed` | module011_2_fna_unique_cross_classifcation_Bcell.py:99 | a string with no surrounding whitespace is left unchanged by stripping |
| `Text.TrimIdempotent` | module011_2_fna_unique_cross_classifcation_Bcell.py:99 | stripping twice equals stripping once |
| `Text.TrimEmptyIffAllSpace` | module011_2_fna_unique_cross_classifcation_Bcell.py:99-100 | a value strips to the empty string exactly when it is all whitespace |
| `Text.TrimKeepsNonSpace` | module011_2_fna_unique_cross_classifcation_Bcell.py:99-100 | a value with any non-whitespace character does not strip to the empty string |
| `Text.Distinct` | module011_2_fna_unique_cross_classifcation_Bcell.py:110 | the distinct values have no duplicates, the same members as the input, and the input's first value first |
| `Text.DistinctFirstAppearanceOrder` | module011_2_fna_unique_cross_classifcation_Bcell.py:110 | distinct values appear in the order of their first occurrence in the input |
| `Dedup.InWithin` | module011_2_fna_unique_cross_classifcation_Bcell.py:46 | the reducer's selection: a qualifying row whose two wells are equal; `Dedup.DropRule` states that only such rows are ever dropped |
| `Dedup.Unranked` | module011_2_fna_unique_cross_classifcation_Bcell.py:44-56 | reference reducer: a row survives exactly when it is not a qualifying same-well row beaten on reads by a qualifying same-well row of its well |
| `Dedup.WellSize` | module011_2_fna_unique_cross_classifcation_Bcell.py:49-50 | the size of a well's subgroup is at most the group size and is zero exactly when no qualifying same-well row has that well |
| `Dedup.WellMax` | module011_2_fna_unique_cross_classifcation_Bcell.py:51 | a well's maximum read count exists exactly when the subgroup is non-empty, bounds every subgroup row and is attained by one |
| `Dedup.DropCount` | module011_2_fna_unique_cross_classifcation_Bcell.py:52-54 | dropped rows plus kept rows account for every row |
| `Dedup.Dropped` | module011_2_fna_unique_cross_classifcation_Bcell.py:49-52 | the drop decision as the program takes it: a qualifying same-well row whose well subgroup has more than one row and whose reads are below the well maximum; `Dedup.DroppedIffOutranked` proves it equal to the reference rule |
| `Dedup.KeepRows` | module011_2_fna_unique_cross_classifcation_Bcell.py:48-55 | the rows left after dropping the drop list, in order; `Dedup.KeepRowsIsUnranked` proves them the reference survivors and `Dedup.DropCount` accounts for the rest |
| `Dedup.WellSizeTwo` | module011_2_fna_unique_cross_classifcation_Bcell.py:50 | two different rows of one well make its subgroup larger than one |
| `Dedup.DroppedIffOutranked` | module011_2_fna_unique_cross_classifcation_Bcell.py:49-52 | the program's size-and-maximum drop test agrees with the reference rule on every row of the group |
| `Dedup.KeepRowsIsUnranked` | module011_2_fna_unique_cross_classifcation_Bcell.py:48-55 | the rows the program keeps are exactly the reference survivors, in order |
| `Dedup.Reduce` | module011_2_fna_unique_cross_classifcation_Bcell.py:44-56 | the reduced group is the reference survivors in original order, and survivors plus removed count equal the group size |
| `Dedup.DropRule` | module011_2_fna_unique_cross_classifcation_Bcell.py:46-55 | a row is dropped exactly when it is qualifying, same-well, and another qualifying same-well row of its well has strictly more reads |
| `Dedup.SurvivesIffAtWellMaximum` | module011_2_fna_unique_cross_classifcation_Bcell.py:50-52 | a qualifying same-well row survives exactly when its reads equal its well's maximum, so ties all survive |
| `Dedup.SurvivorsNotOutranked` | module011_2_fna_unique_cross_classifcation_Bcell.py:44-56 | no survivor is beaten on reads by another survivor of its well |
| `Dedup.ReduceIdempotent` | module011_2_fna_unique_cross_classifcation_Bcell.py:44-56 | reducing the reduced group removes nothing and returns it unchanged |
| `Classify.AllTrue` | module011_2_fna_unique_cross_classifcation_Bcell.py:80 | every flag holds, as `.all()` at lines 80 and 121; its contract states it for every index |
| `Classify.AnyTrue` | module011_2_fna_unique_cross_classifcation_Bcell.py:81 | some flag holds, as `.any()` at lines 81 and 122; its contract states it for some index |
| `Classify.TriState` | module011_2_fna_unique_cross_classifcation_Bcell.py:80-88 | "no" exactly when every flag holds, "yes" exactly when none does, "yes and no" exactly when they are mixed |
| `Classify.TriStateText` | module011_2_fna_unique_cross_classifcation_Bcell.py:80-88 | the text written for a non-empty flag list is "no" exactly when every flag holds, "yes" exactly when none does, and "yes and no" exactly when they are mixed |
| `Classify.Qualifiers` | module011_2_fna_unique_cross_classifcation_Bcell.py:74-79 | the qualifying survivors are empty exactly when no survivor qualifies |
| `Classify.QualifiersHead` | module011_2_fna_unique_cross_classifcation_Bcell.py:96-117 | the first qualifying row in group order heads the qualifying rows |
| `Classify.QualifiersAllDown` | module011_2_fna_unique_cross_classifcation_Bcell.py:74-79 | a row test (same donor or not; normalised second epitope equal to a value or not) passed by every row of the qualifying selection is passed by every qualifying survivor |
| `Classify.QualifiersAllUp` | module011_2_fna_unique_cross_classifcation_Bcell.py:74-79 | a row test passed by every qualifying survivor is passed by every row of the qualifying selection |
| `Classify.QualifiersAll` | module011_2_fna_unique_cross_classifcation_Bcell.py:74-79 | a row test is passed by all qualifying survivors exactly when it is passed by all rows of the qualifying selection, in both directions |
| `Classify.UniqueWithin` | module011_2_fna_unique_cross_classifcation_Bcell.py:59-71 | "no" exactly when some survivor is an identical subset-to-subset match with a passing global score; never "yes and no" |
| `Classify.CrossDonor` | module011_2_fna_unique_cross_classifcation_Bcell.py:73-88 | unset exactly when no row qualifies; "no" exactly when every qualifying row is same-donor; "yes" exactly when none is |
| `Classify.NormalizeEpitope` | module011_2_fna_unique_cross_classifcation_Bcell.py:96-107 | a normalised epitope is never empty, and a missing one is "empty" |
| `Classify.NormalizeNonBlank` | module011_2_fna_unique_cross_classifcation_Bcell.py:96-107 | an epitope with a non-whitespace character normalises to a non-empty contiguous slice of itself that starts and ends with non-whitespace and has only whitespace around it |
| `Classify.NormalizedEpitopeTrimmed` | module011_2_fna_unique_cross_classifcation_Bcell.py:99 | a normalised epitope neither starts nor ends with whitespace |
| `Classify.NormalizeKeepsTrimmed` | module011_2_fna_unique_cross_classifcation_Bcell.py:99-100 | a non-empty epitope without surrounding whitespace normalises to itself |
| `Classify.NormalizeEpitopeIdempotent` | module011_2_fna_unique_cross_classifcation_Bcell.py:96-107 | normalising a normalised epitope again changes nothing |
| `Classify.BlankEpitopeIsEmpty` | module011_2_fna_unique_cross_classifcation_Bcell.py:99-100 | a missing or all-whitespace epitope normalises to "empty", the same category as the literal "empty" |
| `Classify.FirstEpitopes` | module011_2_fna_unique_cross_classifcation_Bcell.py:110 | the distinct normalised first epitopes of the qualifying rows; `Classify.CanonicalEpitope` states that its head is the first qualifying row's normalised epitope and is among them |
| `Classify.CanonicalEpitope` | module011_2_fna_unique_cross_classifcation_Bcell.py:109-117 | the canonical first epitope is the first qualifying row's normalised first epitope and is one of the distinct values |
| `Classify.EpitopeVerdict` | module011_2_fna_unique_cross_classifcation_Bcell.py:119-132 | "no" exactly when every normalised second epitope equals the canonical value; "yes" exactly when none does |
| `Classify.CrossEpitope` | module011_2_fna_unique_cross_classifcation_Bcell.py:90-134 | the verdict is set exactly when some row qualifies; the diagnostic count is at most 1 and is 1 exactly when the verdict is "no" and the canonical epitope is "empty" |
| `Classify.LabelGroup` | module011_2_fna_unique_cross_classifcation_Bcell.py:58-134 | one labelled row per survivor, each carrying its survivor, in group order; at most one both-empty group is counted |
| `Classify.LabelRow` | module011_2_fna_unique_cross_classifcation_Bcell.py:69-88 | a survivor gets the uniqueness label when it is a subset member and the two broadcast labels when it qualifies; `Classify.LabelGroupSpec` states this for every row of a group |
| `Classify.LabelGroupSpec` | module011_2_fna_unique_cross_classifcation_Bcell.py:58-134 | the uniqueness label sits on exactly the subset members and the two broadcast labels on exactly the qualifying rows, each with its group-level value; the count is the epitope step's |
| `Classify.ClassifyGroup` | module011_2_fna_unique_cross_classifcation_Bcell.py:13-134 | the labelled rows are the reducer's survivors in order; survivors plus removed rows equal the group size; all labels are computed from survivors only |
| `Classify.UniqueWithinRule` | module011_2_fna_unique_cross_classifcation_Bcell.py:64-71 | a subset member's uniqueness label is "no" exactly when an identical subset match survives, "yes" exactly when none does |
| `Classify.BroadcastInvariant` | module011_2_fna_unique_cross_classifcation_Bcell.py:74-132 | every qualifying survivor carries the same cross-donor and the same cross-epitope value |
| `Classify.CrossDonorRule` | module011_2_fna_unique_cross_classifcation_Bcell.py:74-88 | the cross-donor label of a qualifying survivor, stated over the group's qualifying rows: all same-donor is "no", none is "yes", mixed is "yes and no" |
| `Classify.EpitopeVerdictOverGroup` | module011_2_fna_unique_cross_classifcation_Bcell.py:119-132 | the epitope comparison over the qualifying selection is "no" exactly when every qualifying survivor's normalised second epitope equals the canonical value, "yes" exactly when none does |
| `Classify.CrossEpitopeRule` | module011_2_fna_unique_cross_classifcation_Bcell.py:93-132 | the cross-epitope label against the first qualifying row's normalised epitope: all equal is "no", none equal is "yes"; the group counts as both-empty exactly when "no" with an "empty" canonical value |
| `Classify.NoQualifierNoVerdict` | module011_2_fna_unique_cross_classifcation_Bcell.py:74-95 | a group with no qualifying survivor gets no broadcast labels and counts nothing |
| `Classify.GroupLabelsOnMasks` | module011_2_fna_unique_cross_classifcation_Bcell.py:58-95 | a group's classification sets the uniqueness cell only on subset members and the broadcast cells only on qualifying rows |
| `Table.GroupOf` | module011_2_fna_unique_cross_classifcation_Bcell.py:173 | a group holds exactly the table rows with its key |
| `Table.GroupKeys` | module011_2_fna_unique_cross_classifcation_Bcell.py:173 | the group keys are distinct, every row's key is one of them, and each comes from some row |
| `Table.HitsDistinct` | module011_2_fna_unique_cross_classifcation_Bcell.py:173 | a key occurs at most once among distinct group keys |
| `Table.PartitionCovers` | module011_2_fna_unique_cross_classifcation_Bcell.py:173 | the group sizes over distinct covering keys add up to the table size |
| `Table.ClassifyGroups` | module011_2_fna_unique_cross_classifcation_Bcell.py:160-173 | the fold's labelled rows plus removed rows equal the grouped rows; the empty-epitope total is at most the number of groups (`Table.EmptyEpitopeCountsGroups` gives its exact value); every labelled row is a table row of one of the keys |
| `Table.GroupCountIsFlag` | module011_2_fna_unique_cross_classifcation_Bcell.py:92-128 | a group's empty-epitope count is 1 when the group counts as both-empty and 0 otherwise |
| `Table.BothEmptyKeysStep` | module011_2_fna_unique_cross_classifcation_Bcell.py:160-173 | appending a new key adds it to the both-empty keys exactly when its group counts as both-empty |
| `Table.EmptyEpitopeCountsGroups` | module011_2_fna_unique_cross_classifcation_Bcell.py:160-173 | over distinct keys, the summed empty-epitope count is the number of keys whose group counts as both-empty |
| `Table.GroupRowsBelong` | module011_2_fna_unique_cross_classifcation_Bcell.py:160-171 | every labelled row of a group's classification is a row of that group |
| `Table.LabelColumnsShape` | module011_2_fna_unique_cross_classifcation_Bcell.py:176-179 | each renamed column is its base name followed by `_` and the subset name, or `_all` for the empty subset; the three are distinct; different non-empty subsets get different columns; an empty subset gets the same names as "all" |
| `Table.ColumnsDistinct` | module011_2_fna_unique_cross_classifcation_Bcell.py:153 | the three renamed columns are pairwise different |
| `Table.ColumnAfterBase` | module011_2_fna_unique_cross_classifcation_Bcell.py:176-179 | a renamed column is its base name, then `_`, then the subset name or `all` |
| `Table.SuffixShape` | module011_2_fna_unique_cross_classifcation_Bcell.py:177 | the suffix is `_` followed by the subset name, or by `all` when the subset name is empty |
| `Table.Lookup` | module011_2_fna_unique_cross_classifcation_Bcell.py:174 | finds a labelled row with the given id exactly when one exists |
| `Table.LookupConcat` | module011_2_fna_unique_cross_classifcation_Bcell.py:173-174 | looking up an id in two concatenated blocks finds it in the first block when it is there |
| `Table.MergeRow` | module011_2_fna_unique_cross_classifcation_Bcell.py:181-185 | the merged row is the input row, and a row outside the subset gets no labels |
| `Table.ClassifyAll` | module011_2_fna_unique_cross_classifcation_Bcell.py:136-185 | the output has the suffixed columns and one row per input row in order; non-subset rows are unlabelled; the totals are bounded by the table size and the number of groups |
| `Table.TotalsAccountForTable` | module011_2_fna_unique_cross_classifcation_Bcell.py:169-173 | the classified rows plus the total removed rows equal the input row count |
| `Table.TotalEmptyEpitopeCountsGroups` | module011_2_fna_unique_cross_classifcation_Bcell.py:152-170 | the table's empty-epitope total is the number of groups that count as both-empty, each at most once |
| `Table.OtherRowOtherId` | module011_2_fna_unique_cross_classifcation_Bcell.py:174 | with distinct row ids, every other table row has a different id |
| `Table.ForeignRowsMissId` | module011_2_fna_unique_cross_classifcation_Bcell.py:174 | with distinct row ids, labelled rows that are other table rows never carry the given row's id |
| `Table.GroupRowsInTable` | module011_2_fna_unique_cross_classifcation_Bcell.py:160-173 | every labelled row of a group's classification is a table row with that group's key |
| `Table.RowsAmong` | module011_2_fna_unique_cross_classifcation_Bcell.py:160-173 | every labelled row whose rows are the survivors is one of the survivors |
| `Table.PresentRowFound` | module011_2_fna_unique_cross_classifcation_Bcell.py:174 | with distinct row ids, a table row present among the labelled rows is found by its id, and the row found is that row |
| `Table.AbsentRowNotFound` | module011_2_fna_unique_cross_classifcation_Bcell.py:174 | with distinct row ids, a table row absent from the labelled rows is not found by its id |
| `Table.OtherGroupsMissId` | module011_2_fna_unique_cross_classifcation_Bcell.py:173-174 | with distinct row ids, the labelled rows of groups other than a row's own never carry that row's id |
| `Table.BlockMissesForeignId` | module011_2_fna_unique_cross_classifcation_Bcell.py:173-174 | with distinct row ids, one other group's labelled rows never carry the row's id |
| `Table.LookupStep` | module011_2_fna_unique_cross_classifcation_Bcell.py:173-174 | adding one group's block to the concatenation changes a row's lookup exactly when the block is that row's own group |
| `Table.LookupFindsOwnGroup` | module011_2_fna_unique_cross_classifcation_Bcell.py:173-174 | looking a row id up in the concatenated classification finds that row's own group's entry |
| `Table.MergeCarriesGroupLabels` | module011_2_fna_unique_cross_classifcation_Bcell.py:173-185 | a subset row that its group's reducer keeps (it is not outranked on reads within its well) carries exactly its group's labels; one the reducer drops carries none |
| `Table.MergeFromBlock` | module011_2_fna_unique_cross_classifcation_Bcell.py:181-185 | merging a subset row against labelled rows that agree with its group on its id gives the row's own labelled entry when it survived and no labels otherwise |
| `Table.ReindexAsWritten` | module011_2_fna_unique_cross_classifcation_Bcell.py:174 | the reindex succeeds exactly when every input id is among the classified rows, and then returns the classified row of each input id in input order |
| `Table.ClassifyAllAsWritten` | module011_2_fna_unique_cross_classifcation_Bcell.py:173-185 | the driver as written fails exactly when some input id is missing from the classified rows or some label column was never created by any group; otherwise it keeps one row per input row, and `Table.AsWrittenAgreesWhenDefined` shows it then equals the corrected classification |
| `Table.WriteAligned` | module011_2_fna_unique_cross_classifcation_Bcell.py:181-185 | each subset row takes the labels of the aligned classified row at its position; other rows stay unlabelled; `Table.AlignedWriteIsMerge` shows the result is the corrected merge |
| `Table.AlignedWriteIsMerge` | module011_2_fna_unique_cross_classifcation_Bcell.py:174-185 | when the reindex as written succeeds, writing its aligned rows into the table gives exactly the corrected merge |
| `Table.AsWrittenAgreesWhenDefined` | module011_2_fna_unique_cross_classifcation_Bcell.py:136-185 | wherever the classification as written does not fail, it returns exactly the corrected classification: same columns, rows and totals |
| `Table.DroppedRowNotFound` | module011_2_fna_unique_cross_classifcation_Bcell.py:174 | a row the reducer drops (outranked on reads within its well) is not found by id in its group's classification |
| `Table.AsWrittenFailsOnDroppedRow` | module011_2_fna_unique_cross_classifcation_Bcell.py:174 | when the reducer drops any row (one outranked on reads within its well), the driver with the reindex as written fails |
| `Table.SurvivorIffNotOutranked` | module011_2_fna_unique_cross_classifcation_Bcell.py:44-56 | a table row is among its group's classified rows exactly when it is not outranked on reads within its well in that group |
| `Table.BatchLabelsOnMasks` | module011_2_fna_unique_cross_classifcation_Bcell.py:160-173 | the concatenated classifications of all groups set each label only on a row of that label's mask |
| `Table.OnMasksConcat` | module011_2_fna_unique_cross_classifcation_Bcell.py:173 | concatenating blocks whose labels sit on their masks keeps every label on its mask |
| `Table.NoMaskNoColumn` | module011_2_fna_unique_cross_classifcation_Bcell.py:181-185 | labelled rows drawn from a table with no qualifying row have no broadcast cell set, and from a table with no subset row no uniqueness cell set |
| `Table.NoColumnWithoutMask` | module011_2_fna_unique_cross_classifcation_Bcell.py:181-185 | with no qualifying row or no subset row in the table, some label column is never created |
| `Table.ColumnsCreated` | module011_2_fna_unique_cross_classifcation_Bcell.py:185 | each of the three label columns has a set cell somewhere in the classified rows; `Table.NoColumnWithoutMask` states that it fails for a table with no qualifying row or no subset row |
| `Table.AsWrittenFailsWithoutColumn` | module011_2_fna_unique_cross_classifcation_Bcell.py:181-185 | a table with no qualifying row, or with no subset row (the empty table among them), makes the driver as written fail on a label column no group created |
| `Table.MergedLabelsOnMasks` | module011_2_fna_unique_cross_classifcation_Bcell.py:181-185 | with distinct row ids, the corrected merge sets the uniqueness cell only on subset rows and the broadcast cells only on qualifying rows |
| `Table.MergeRowOnMasks` | module011_2_fna_unique_cross_classifcation_Bcell.py:181-185 | with distinct row ids, merging one table row copies only labels that sit on that row's own masks |
| `Table.MergeWithoutQualifierUnset` | module011_2_fna_unique_cross_classifcation_Bcell.py:181-185 | without any qualifying row, the corrected merge leaves both broadcast cells of every row unset instead of failing |
| `Table.MergeRowKeepsUnset` | module011_2_fna_unique_cross_classifcation_Bcell.py:185 | merging against labelled rows whose broadcast cells are all unset leaves the merged row's broadcast cells unset |
| `Scenarios.LowerReadRowDropped` | module011_2_fna_unique_cross_classifcation_Bcell.py:49-55 | two rows of one well with reads 10 and 20: only the 20-read row survives and one row is removed |
| `Scenarios.TiedRowsBothSurvive` | module011_2_fna_unique_cross_classifcation_Bcell.py:50-52 | two rows of one well tied at 20 reads both survive and nothing is removed |
| `Scenarios.UniqueNeedsExactly100` | module011_2_fna_unique_cross_classifcation_Bcell.py:64-71 | identity 99.5 leaves a group unique; one match at exactly 100 makes it not unique |
| `Scenarios.DifferentDonorsCrossDonorYes` | module011_2_fna_unique_cross_classifcation_Bcell.py:83-88 | one qualifying row between two donors gives cross-donor "yes" |
| `Scenarios.SameEpitopeCrossEpitopeNo` | module011_2_fna_unique_cross_classifcation_Bcell.py:120-126 | one qualifying row with equal epitopes gives cross-epitope "no" |
| `Scenarios.OutrankedPairBreaksReindex` | module011_2_fna_unique_cross_classifcation_Bcell.py:173-185 | any two-row group whose lower-read row is dropped makes the reindex as written fail, while the corrected merge leaves that row unlabelled |
| `Scenarios.OutrankedPairShape` | module011_2_fna_unique_cross_classifcation_Bcell.py:44-56 | two qualifying same-well rows of one group and well with distinct ids and fewer reads in the first: the first row is outranked in the group |
| `Scenarios.DroppedRowBreaksReindex` | module011_2_fna_unique_cross_classifcation_Bcell.py:174 | the concrete table with reads 10 and 20 in one well makes the reindex as written fail |
| `Scenarios.LowIdentityRowBreaksMerge` | module011_2_fna_unique_cross_classifcation_Bcell.py:173-185 | a one-row table with identity 50 makes the driver as written fail, while the corrected merge labels the row unique and leaves both broadcast cells unset |
| `Scenarios.LowIdentityRowUnique` | module011_2_fna_unique_cross_classifcation_Bcell.py:59-71 | a lone subset row that neither qualifies nor is an identical match is labelled unique by the merge |
| `Scenarios.EmptyTableBreaksMerge` | module011_2_fna_unique_cross_classifcation_Bcell.py:173-185 | the empty table makes the driver as written fail, while the corrected merge returns the empty table |

## Left out

- Printing: the multi-epitope warning (lines 112-116) and the summaries (lines 155, 188-206). They are advisory output. When several normalised first epitopes occur, the model silently uses the first one.
- The printed "Remaining rows" (line 203) is the size of the whole input table, not input minus removed. The row-count invariant is stated for the classified rows instead (`Table.TotalsAccountForTable`).
- Coercion of the `*_sample_type` placeholder columns (lines 29-34). The label logic never reads them.
- NaN and floating-point semantics of identity, global score and read counts. They are modelled as totally ordered `real`/`int` values.
- Rows whose group key is missing. The table library's group-by drops them, and the model's key is always a string.
- `Table.ClassifyAll`: its own contract bounds the totals and fixes the row shape. The exact totals are stated by `Table.TotalsAccountForTable` and `Table.TotalEmptyEpitopeCountsGroups`, and the per-row labels by `Table.MergeCarriesGroupLabels`, which needs distinct row ids.
- Unicode whitespace in epitope stripping. The model trims the ASCII whitespace the table library's strip removes (tab to carriage return, the separators U+001C to U+001F and space), but not non-ASCII whitespace such as U+0085 or U+00A0.
- Label columns already present in the input table (lines 183-184). The model assumes they are absent, so non-subset rows are unlabelled.
- Group order in the fold. The table library visits groups in sorted key order, while the model uses first-appearance order. Labels are looked up by row id, so the order changes no result.
- Duplicate row ids in the input index. The lemmas about merged labels assume distinct ids (`Table.DistinctIds`). The reducer also drops rows by index label (lines 52-56): with duplicate ids one dropped label removes every row of the group that carries it, and `len(to_drop)` counts labels rather than rows. The model drops and counts rows.
- The column-name parameters `groupby_col`, `identity_col`, `global_col` and `cell_type_col_1` (lines 138-143). The model fixes them at their defaults. `cell_type_col_1` only drives the write-back mask (line 156) and is never passed to the group classifier, which reads `1st_cell_type` itself (lines 59 and 61). With a non-default value the write-back mask and the uniqueness mask read different columns and can disagree. The model's single `Records.SubsetMember` cannot express that.
- `004_add_PBMC_CD4_VRC01_BG505_data_summary.py` is not part of this model. It is spreadsheet I/O and table joins with no core of its own.

## Findings

| source | as written | input that shows it | evidently intended | confidence | as-written member | corrected member |
|---|---|---|---|---|---|---|
| module011_2_fna_unique_cross_classifcation_Bcell.py:174 | `classified.loc[work.index]` looks up every input row label in the classified rows, which lack the rows the reducer dropped; a list lookup with a missing label raises `KeyError` | one group of two qualifying same-well rows in one well with reads 10 and 20 | dropped rows stay in the output table without labels, and survivors carry their group's labels | not executed; depends on the table library raising on missing list labels (its behaviour since version 1.0) | `Table.ClassifyAllAsWritten`, `Scenarios.DroppedRowBreaksReindex` | `Table.ClassifyAll`, `Table.MergeCarriesGroupLabels`, `Table.AsWrittenAgreesWhenDefined` |
| module011_2_fna_unique_cross_classifcation_Bcell.py:185 | `classified.loc[mask, col]` reads each of the three label columns, but a group creates a label column only when its mask for that label is non-empty; a column no group created raises `KeyError` | a one-row table with identity 50 and first cell type `Bcell` (no qualifying row, so no broadcast column); the empty table (no uniqueness column) | a label no group wrote stays unset on every row | not executed; depends on the table library raising on a missing column label | `Table.ClassifyAllAsWritten`, `Table.AsWrittenFailsWithoutColumn`, `Scenarios.LowIdentityRowBreaksMerge`, `Scenarios.EmptyTableBreaksMerge` | `Table.ClassifyAll`, `Table.MergedLabelsOnMasks`, `Table.MergeWithoutQualifierUnset`, `Table.AsWrittenAgreesWhenDefined` |

=== FILE: classify.dfy ===
/**
 Classification of one `1st_sequence_id` group: the duplicate reducer, then
 three labels computed from the surviving rows (uniqueness within the subset,
 cross-donor, cross-epitope) and the empty-epitope diagnostic count.
 */
module Classify {
  import opened Records
  import opened Text
  import opened Dedup

  // ---- The all / any / none rule --------------------------------------------

  function AllTrue(flags: seq<bool>): (b: bool)
    ensures b <==> forall i :: 0 <= i < |flags| ==> flags[i]
  {
    |flags| == 0 || (flags[0] && AllTrue(flags[1..]))
  }

  function AnyTrue(flags: seq<bool>): (b: bool)
    ensures b <==> exists i :: 0 <= i < |flags| && flags[i]
  {
    |flags| > 0 && (flags[0] || AnyTrue(flags[1..]))
  }

  /** The tri-state group decision: "no" when every flag holds, "yes" when none
      does, "yes and no" when they are mixed. */
  function TriState(flags: seq<bool>): (l: Label)
    requires |flags| > 0
    ensures l == No <==> forall i :: 0 <= i < |flags| ==> flags[i]
    ensures l == Yes <==> forall i :: 0 <= i < |flags| ==> !flags[i]
    ensures l == YesAndNo <==>
      (exists i :: 0 <= i < |flags| && flags[i]) && (exists i :: 0 <= i < |flags| && !flags[i])
  {
    if AllTrue(flags) then No
    else if AnyTrue(flags) then YesAndNo
    else Yes
  }

  /** The text the tri-state rule writes: "no" exactly when every flag holds,
      "yes" exactly when none does, "yes and no" exactly when they are mixed. */
  lemma TriStateText(flags: seq<bool>)
    requires |flags| > 0
    ensures LabelText(TriState(flags)) == "no" <==> forall i :: 0 <= i < |flags| ==> flags[i]
    ensures LabelText(TriState(flags)) == "yes" <==> forall i :: 0 <= i < |flags| ==> !flags[i]
    ensures LabelText(TriState(flags)) == "yes and no" <==>
      (exists i :: 0 <= i < |flags| && flags[i]) && (exists i :: 0 <= i < |flags| && !flags[i])
  {
    assert LabelText(No) == "no" && LabelText(Yes) == "yes" && LabelText(YesAndNo) == "yes and no";
  }

  // ---- Qualifying survivors ---------------------------------------------------

  /** The qualifying rows of `s`, in order. */
  function Qualifiers(s: seq<Row>, cfg: Config): (q: seq<Row>)
    ensures |q| <= |s|
    ensures |q| == 0 <==> forall j :: 0 <= j < |s| ==> !Qualifying(s[j], cfg)
  {
    if |s| == 0 then []
    else
      assert forall j :: 1 <= j < |s| ==> s[j] == s[1..][j - 1];
      (if Qualifying(s[0], cfg) then [s[0]] else []) + Qualifiers(s[1..], cfg)
  }

  /** The first qualifying row of `s` heads the qualifying rows. */
  lemma {:induction false} QualifiersHead(s: seq<Row>, cfg: Config, f: nat)
    requires f < |s| && Qualifying(s[f], cfg)
    requires forall k :: 0 <= k < f ==> !Qualifying(s[k], cfg)
    ensures |Qualifiers(s, cfg)| > 0 && Qualifiers(s, cfg)[0] == s[f]
  {
    if f > 0 {
      QualifiersHead(s[1..], cfg, f - 1);
    }
  }

  // ---- Step 2: uniqueness within the subset ---------------------------------

  /** "no" when some surviving row is an identical subset-to-subset match, else "yes". */
  function UniqueWithin(s: seq<Row>, cfg: Config): (l: Label)
    ensures l == No <==> exists i :: 0 <= i < |s| && IdenticalSubsetMatch(s[i], cfg)
    ensures l != YesAndNo
  {
    var flags := seq(|s|, i requires 0 <= i < |s| => IdenticalSubsetMatch(s[i], cfg));
    assert forall i :: 0 <= i < |s| ==> flags[i] == IdenticalSubsetMatch(s[i], cfg);
    if AnyTrue(flags) then No else Yes
  }

  // ---- Step 3: cross-donor ------------------------------------------------

  /** The cross-donor label of the qualifying survivors `q`; unset when there are none. */
  function CrossDonor(q: seq<Row>): (l: Option<Label>)
    ensures l.Some? <==> |q| > 0
    ensures l == Some(No) <==> |q| > 0 && forall i :: 0 <= i < |q| ==> SameDonor(q[i])
    ensures l == Some(Yes) <==> |q| > 0 && forall i :: 0 <= i < |q| ==> !SameDonor(q[i])
  {
    if |q| == 0 then None
    else
      var flags := seq(|q|, i requires 0 <= i < |q| => SameDonor(q[i]));
      assert forall i :: 0 <= i < |q| ==> flags[i] == SameDonor(q[i]);
      Some(TriState(flags))
  }

  // ---- Step 4: cross-epitope ----------------------------------------------

  const EmptyEpitope: string := "empty"

  /** Trims the epitope; a missing or blank epitope becomes the "empty" category. */
  function NormalizeEpitope(e: Option<string>): (n: string)
    ensures n != []
    ensures e.None? ==> n == EmptyEpitope
  {
    match e
    case None => EmptyEpitope
    case Some(v) => var t := Trim(v); if t == [] then EmptyEpitope else t
  }

  /** An epitope with a non-whitespace character normalises to the slice of it
      left after cutting the whitespace on both sides, which starts and ends with
      a non-whitespace character. */
  lemma {:induction false} NormalizeNonBlank(v: string)
    requires exists k :: 0 <= k < |v| && !IsSpace(v[k])
    ensures exists lo, hi :: lo < hi && InnerSlice(v, NormalizeEpitope(Some(v)), lo, hi)
  {
    var k :| 0 <= k < |v| && !IsSpace(v[k]);
    TrimKeepsNonSpace(v, k);
    TrimIsInnerSlice(v);
    assert NormalizeEpitope(Some(v)) == Trim(v);
  }

  /** A normalised epitope has no surrounding whitespace. */
  lemma NormalizedEpitopeTrimmed(e: Option<string>)
    ensures var n := NormalizeEpitope(e); !IsSpace(n[0]) && !IsSpace(n[|n| - 1])
  {
    if e.Some? && Trim(e.value) != [] {
      TrimIsInnerSlice(e.value);
    }
  }

  /** A non-empty epitope without surrounding whitespace is its own normal form. */
  lemma NormalizeKeepsTrimmed(t: string)
    requires |t| > 0 && !IsSpace(t[0]) && !IsSpace(t[|t| - 1])
    ensures NormalizeEpitope(Some(t)) == t
  {
    TrimFixesTrimmed(t);
  }

  /** Normalising a normalised epitope again changes nothing. */
  lemma NormalizeEpitopeIdempotent(e: Option<string>)
    ensures NormalizeEpitope(Some(NormalizeEpitope(e))) == NormalizeEpitope(e)
  {
    NormalizedEpitopeTrimmed(e);
    NormalizeKeepsTrimmed(NormalizeEpitope(e));
  }

  /** A missing or all-whitespace epitope falls into the same category as the
      literal "empty". */
  lemma BlankEpitopeIsEmpty(e: Option<string>)
    requires e.None? || forall k :: 0 <= k < |e.value| ==> IsSpace(e.value[k])
    ensures NormalizeEpitope(e) == NormalizeEpitope(Some(EmptyEpitope)) == EmptyEpitope
  {
    if e.Some? {
      TrimEmptyIffAllSpace(e.value);
      assert Trim(e.value) == [];
    }
    NormalizeKeepsTrimmed(EmptyEpitope);
  }

  /** The distinct normalised first epitopes of `q`, in order of first appearance. */
  function FirstEpitopes(q: seq<Row>): seq<string> {
    Distinct(seq(|q|, i requires 0 <= i < |q| => NormalizeEpitope(q[i].firstEpitope)))
  }

  /** The canonical first epitope: the first of the distinct normalised values. */
  function CanonicalEpitope(q: seq<Row>): (c: string)
    requires |q| > 0
    ensures c == NormalizeEpitope(q[0].firstEpitope)
    ensures c in FirstEpitopes(q)
  {
    var epis := seq(|q|, i requires 0 <= i < |q| => NormalizeEpitope(q[i].firstEpitope));
    assert epis[0] in epis;
    FirstEpitopes(q)[0]
  }

  /** The tri-state comparison of each normalised second epitope of `q` with `c`. */
  function EpitopeVerdict(q: seq<Row>, c: string): (l: Label)
    requires |q| > 0
    ensures l == No <==> forall i :: 0 <= i < |q| ==> NormalizeEpitope(q[i].secondEpitope) == c
    ensures l == Yes <==> forall i :: 0 <= i < |q| ==> NormalizeEpitope(q[i].secondEpitope) != c
  {
    var flags := seq(|q|, i requires 0 <= i < |q| => NormalizeEpitope(q[i].secondEpitope) == c);
    assert forall i :: 0 <= i < |q| ==> flags[i] == (NormalizeEpitope(q[i].secondEpitope) == c);
    TriState(flags)
  }

  datatype EpitopeOutcome = EpitopeOutcome(verdict: Option<Label>, bothEmpty: nat)

  /** The cross-epitope label of the qualifying survivors `q`, and the diagnostic
      count that is 1 when the "no" is only because both sides are "empty". */
  function CrossEpitope(q: seq<Row>): (o: EpitopeOutcome)
    ensures o.verdict.Some? <==> |q| > 0
    ensures |q| > 0 ==> o.verdict == Some(EpitopeVerdict(q, NormalizeEpitope(q[0].firstEpitope)))
    ensures o.bothEmpty == 1 <==>
      |q| > 0 && o.verdict == Some(No) && NormalizeEpitope(q[0].firstEpitope) == EmptyEpitope
    ensures o.bothEmpty <= 1
  {
    if |q| == 0 then EpitopeOutcome(None, 0)
    else
      var c := CanonicalEpitope(q);
      var l := EpitopeVerdict(q, c);
      EpitopeOutcome(Some(l), if l == No && c == EmptyEpitope then 1 else 0)
  }

  // ---- The label classifier -----------------------------------------------

  /** Writes the group's labels into one surviving row: the uniqueness label to a
      subset member, the two broadcast labels to a qualifying row. */
  function LabelRow(r: Row, cfg: Config, unique: Label, donor: Option<Label>, epitope: Option<Label>): Labeled {
    Labeled(
      r,
      if SubsetMember(r, cfg) then Some(unique) else None,
      if Qualifying(r, cfg) then donor else None,
      if Qualifying(r, cfg) then epitope else None)
  }

  datatype Labeling = Labeling(rows: seq<Labeled>, emptyEpitope: nat)

  /** Steps 2 to 4 on the surviving rows `s` of a group: one labelled row per
      survivor, in order. `LabelGroupSpec` states which labels each row carries. */
  function LabelGroup(s: seq<Row>, cfg: Config): (res: Labeling)
    ensures |res.rows| == |s|
    ensures forall i :: 0 <= i < |s| ==> res.rows[i].row == s[i]
    ensures res.emptyEpitope <= 1
  {
    var q := Qualifiers(s, cfg);
    var unique := UniqueWithin(s, cfg);
    var donor := CrossDonor(q);
    var epitope := CrossEpitope(q);
    var rows := seq(|s|, i requires 0 <= i < |s| => LabelRow(s[i], cfg, unique, donor, epitope.verdict));
    Labeling(rows, epitope.bothEmpty)
  }

  /** The labels of the group classifier: the uniqueness label sits on exactly the
      subset members and the two broadcast labels on exactly the qualifying rows,
      each with its group-level value; the diagnostic count is the epitope step's. */
  lemma LabelGroupSpec(s: seq<Row>, cfg: Config)
    ensures var res := LabelGroup(s, cfg);
      && (forall i :: 0 <= i < |s| ==>
            && (res.rows[i].unique.Some? <==> SubsetMember(s[i], cfg))
            && (res.rows[i].crossDonor.Some? <==> Qualifying(s[i], cfg))
            && (res.rows[i].crossEpitope.Some? <==> Qualifying(s[i], cfg)))
      && (forall i :: 0 <= i < |s| && SubsetMember(s[i], cfg) ==>
            res.rows[i].unique == Some(UniqueWithin(s, cfg)))
      && (forall i :: 0 <= i < |s| && Qualifying(s[i], cfg) ==>
            && res.rows[i].crossDonor == CrossDonor(Qualifiers(s, cfg))
            && res.rows[i].crossEpitope == CrossEpitope(Qualifiers(s, cfg)).verdict)
      && res.emptyEpitope == CrossEpitope(Qualifiers(s, cfg)).bothEmpty
  {
  }

  // ---- The group classifier ----------------------------------------------

  datatype GroupResult = GroupResult(rows: seq<Labeled>, removed: nat, emptyEpitope: nat)

  /** The rows of labelled rows, in order. */
  function RowsOf(ls: seq<Labeled>): seq<Row> {
    seq(|ls|, i requires 0 <= i < |ls| => ls[i].row)
  }

  /** Classifies one group: the labelled rows are the group's survivors in order,
      survivors plus removed rows account for the whole group, and every label is
      computed from the survivors alone. */
  function ClassifyGroup(g: seq<Row>, cfg: Config): (res: GroupResult)
    ensures RowsOf(res.rows) == Unranked(g, cfg, g)
    ensures |res.rows| + res.removed == |g|
    ensures res.rows == LabelGroup(Unranked(g, cfg, g), cfg).rows
    ensures res.emptyEpitope == LabelGroup(Unranked(g, cfg, g), cfg).emptyEpitope
  {
    var red := Reduce(g, cfg);
    var labeling := LabelGroup(red.kept, cfg);
    assert RowsOf(labeling.rows) == red.kept;
    GroupResult(labeling.rows, red.removed, labeling.emptyEpitope)
  }

  // ---- Properties of the label classifier ---------------------------------

  /** The label cells of `l` sit on the masks the classifier writes through: the
      uniqueness cell on a subset member, the broadcast cells on a qualifying row. */
  predicate LabelsOnMasks(l: Labeled, cfg: Config) {
    && (l.unique.Some? ==> SubsetMember(l.row, cfg))
    && (l.crossDonor.Some? ==> Qualifying(l.row, cfg))
    && (l.crossEpitope.Some? ==> Qualifying(l.row, cfg))
  }

  predicate AllOnMasks(ls: seq<Labeled>, cfg: Config) {
    forall k :: 0 <= k < |ls| ==> LabelsOnMasks(ls[k], cfg)
  }

  /** A group's classification sets a label cell only on a row of that label's mask. */
  lemma GroupLabelsOnMasks(g: seq<Row>, cfg: Config)
    ensures AllOnMasks(ClassifyGroup(g, cfg).rows, cfg)
  {
    LabelGroupSpec(Unranked(g, cfg, g), cfg);
  }

  /** The uniqueness label of a subset member is "no" exactly when some surviving
      row is an identical subset-to-subset match, and "yes" otherwise. */
  lemma UniqueWithinRule(s: seq<Row>, cfg: Config, i: nat)
    requires i < |s| && SubsetMember(s[i], cfg)
    ensures var l := LabelGroup(s, cfg).rows[i].unique;
      && (l == Some(No) <==> exists j :: 0 <= j < |s| && IdenticalSubsetMatch(s[j], cfg))
      && (l == Some(Yes) <==> forall j :: 0 <= j < |s| ==> !IdenticalSubsetMatch(s[j], cfg))
  {
  }

  /** The two group-level labels are broadcast: every qualifying survivor carries
      the same cross-donor and the same cross-epitope value. */
  lemma BroadcastInvariant(s: seq<Row>, cfg: Config, i: nat, j: nat)
    requires i < |s| && j < |s| && Qualifying(s[i], cfg) && Qualifying(s[j], cfg)
    ensures var rows := LabelGroup(s, cfg).rows;
      && rows[i].crossDonor.Some? && rows[i].crossDonor == rows[j].crossDonor
      && rows[i].crossEpitope.Some? && rows[i].crossEpitope == rows[j].crossEpitope
  {
  }

  /** The per-row tests the broadcast labels apply to the qualifying survivors:
      same donor (or not), and second epitope equal to `c` (or not). */
  datatype RowTest = DonorTest(same: bool) | EpitopeTest(c: string, equal: bool)

  predicate Passes(t: RowTest, r: Row) {
    match t
    case DonorTest(same) => SameDonor(r) == same
    case EpitopeTest(c, equal) => (NormalizeEpitope(r.secondEpitope) == c) == equal
  }

  /** A test passed by every row of `Qualifiers(s, cfg)` is passed by every
      qualifying row of `s`. */
  lemma {:induction false} QualifiersAllDown(s: seq<Row>, cfg: Config, t: RowTest)
    ensures (forall k :: 0 <= k < |Qualifiers(s, cfg)| ==> Passes(t, Qualifiers(s, cfg)[k]))
      ==> (forall j :: 0 <= j < |s| && Qualifying(s[j], cfg) ==> Passes(t, s[j]))
  {
    if |s| > 0 && forall k :: 0 <= k < |Qualifiers(s, cfg)| ==> Passes(t, Qualifiers(s, cfg)[k]) {
      var rest := s[1..];
      var q := Qualifiers(s, cfg);
      var q' := Qualifiers(rest, cfg);
      var h := if Qualifying(s[0], cfg) then [s[0]] else [];
      assert q == h + q';
      forall k | 0 <= k < |q'|
        ensures Passes(t, q'[k])
      {
        assert q'[k] == q[k + |h|];
      }
      QualifiersAllDown(rest, cfg, t);
      forall j | 0 <= j < |s| && Qualifying(s[j], cfg)
        ensures Passes(t, s[j])
      {
        if j == 0 {
          assert q[0] == s[0];
        } else {
          assert s[j] == rest[j - 1];
        }
      }
    }
  }

  /** A test passed by every qualifying row of `s` is passed by every row of
      `Qualifiers(s, cfg)`. */
  lemma {:induction false} QualifiersAllUp(s: seq<Row>, cfg: Config, t: RowTest)
    ensures (forall j :: 0 <= j < |s| && Qualifying(s[j], cfg) ==> Passes(t, s[j]))
      ==> (forall k :: 0 <= k < |Qualifiers(s, cfg)| ==> Passes(t, Qualifiers(s, cfg)[k]))
  {
    if |s| > 0 && forall j :: 0 <= j < |s| && Qualifying(s[j], cfg) ==> Passes(t, s[j]) {
      var rest := s[1..];
      var q := Qualifiers(s, cfg);
      var q' := Qualifiers(rest, cfg);
      var h := if Qualifying(s[0], cfg) then [s[0]] else [];
      assert q == h + q';
      forall j | 0 <= j < |rest| && Qualifying(rest[j], cfg)
        ensures Passes(t, rest[j])
      {
        assert rest[j] == s[j + 1];
      }
      QualifiersAllUp(rest, cfg, t);
      forall k | 0 <= k < |q|
        ensures Passes(t, q[k])
      {
        if k < |h| {
          assert q[k] == s[0];
        } else {
          assert q[k] == q'[k - |h|];
        }
      }
    }
  }

  /** A test is passed by all qualifying rows of `s` exactly when it is passed by
      all rows of `Qualifiers(s, cfg)`. */
  lemma QualifiersAll(s: seq<Row>, cfg: Config, t: RowTest)
    ensures (forall k :: 0 <= k < |Qualifiers(s, cfg)| ==> Passes(t, Qualifiers(s, cfg)[k]))
      ==> (forall j :: 0 <= j < |s| && Qualifying(s[j], cfg) ==> Passes(t, s[j]))
    ensures (forall j :: 0 <= j < |s| && Qualifying(s[j], cfg) ==> Passes(t, s[j]))
      ==> (forall k :: 0 <= k < |Qualifiers(s, cfg)| ==> Passes(t, Qualifiers(s, cfg)[k]))
  {
    QualifiersAllDown(s, cfg, t);
    QualifiersAllUp(s, cfg, t);
  }

  /** Cross-donor on a qualifying survivor: "no" when every qualifying survivor is
      same-donor, "yes" when none is, "yes and no" when both kinds occur. */
  lemma CrossDonorRule(s: seq<Row>, cfg: Config, i: nat)
    requires i < |s| && Qualifying(s[i], cfg)
    ensures var l := LabelGroup(s, cfg).rows[i].crossDonor;
      && (l == Some(No) <==> forall j :: 0 <= j < |s| && Qualifying(s[j], cfg) ==> SameDonor(s[j]))
      && (l == Some(Yes) <==> forall j :: 0 <= j < |s| && Qualifying(s[j], cfg) ==> !SameDonor(s[j]))
      && (l == Some(YesAndNo) <==>
          && (exists j :: 0 <= j < |s| && Qualifying(s[j], cfg) && SameDonor(s[j]))
          && (exists j :: 0 <= j < |s| && Qualifying(s[j], cfg) && !SameDonor(s[j])))
  {
    QualifiersAll(s, cfg, DonorTest(true));
    QualifiersAll(s, cfg, DonorTest(false));
  }

  /** The epitope comparison over the qualifying survivors, stated over the rows
      of `s` that qualify. */
  lemma EpitopeVerdictOverGroup(s: seq<Row>, cfg: Config, c: string)
    requires |Qualifiers(s, cfg)| > 0
    ensures var l := EpitopeVerdict(Qualifiers(s, cfg), c);
      && (l == No <==>
          forall j :: 0 <= j < |s| && Qualifying(s[j], cfg) ==> NormalizeEpitope(s[j].secondEpitope) == c)
      && (l == Yes <==>
          forall j :: 0 <= j < |s| && Qualifying(s[j], cfg) ==> NormalizeEpitope(s[j].secondEpitope) != c)
  {
    QualifiersAll(s, cfg, EpitopeTest(c, true));
    QualifiersAll(s, cfg, EpitopeTest(c, false));
  }

  /** Cross-epitope on a qualifying survivor, with `f` the first qualifying survivor:
      "no" when every qualifying survivor's normalised second epitope equals the
      normalised first epitope of row `f`, "yes" when none does, "yes and no" when
      mixed; the diagnostic count is 1 exactly for a "no" whose canonical value is
      "empty". */
  lemma CrossEpitopeRule(s: seq<Row>, cfg: Config, i: nat, f: nat)
    requires i < |s| && Qualifying(s[i], cfg)
    requires f < |s| && Qualifying(s[f], cfg) && forall k :: 0 <= k < f ==> !Qualifying(s[k], cfg)
    ensures var l := LabelGroup(s, cfg).rows[i].crossEpitope;
      var c := NormalizeEpitope(s[f].firstEpitope);
      && (l == Some(No) <==>
          forall j :: 0 <= j < |s| && Qualifying(s[j], cfg) ==> NormalizeEpitope(s[j].secondEpitope) == c)
      && (l == Some(Yes) <==>
          forall j :: 0 <= j < |s| && Qualifying(s[j], cfg) ==> NormalizeEpitope(s[j].secondEpitope) != c)
      && (LabelGroup(s, cfg).emptyEpitope == 1 <==> l == Some(No) && c == EmptyEpitope)
  {
    var q := Qualifiers(s, cfg);
    QualifiersHead(s, cfg, f);
    var c := NormalizeEpitope(s[f].firstEpitope);
    assert LabelGroup(s, cfg).rows[i].crossEpitope == Some(EpitopeVerdict(q, c));
    EpitopeVerdictOverGroup(s, cfg, c);
  }

  /** Without a qualifying survivor no broadcast label is set and nothing is counted. */
  lemma NoQualifierNoVerdict(s: seq<Row>, cfg: Config)
    requires forall j :: 0 <= j < |s| ==> !Qualifying(s[j], cfg)
    ensures LabelGroup(s, cfg).emptyEpitope == 0
    ensures forall j :: 0 <= j < |s| ==>
      LabelGroup(s, cfg).rows[j].crossDonor.None? && LabelGroup(s, cfg).rows[j].crossEpitope.None?
  {
  }
}

=== FILE: dedup.dfy ===
/**
 The duplicate reducer of one group: among the qualifying same-well rows,
 grouped by well, every row whose read support is strictly below the well's
 maximum is dropped; rows tied at the maximum all survive.
 */
module Dedup {
  import opened Records

  /** The rows the reducer looks at: qualifying and same-well. */
  predicate InWithin(r: Row, cfg: Config) {
    Qualifying(r, cfg) && SameWell(r)
  }

  /** `r` belongs to the reducer's subgroup of well `w`. */
  predicate InWell(r: Row, cfg: Config, w: string) {
    InWithin(r, cfg) && r.firstWell == Some(w)
  }

  /** Reference rule: `r` is outranked in `g` when it is a qualifying same-well row
      and some qualifying same-well row of `g` from the same well has strictly
      more reads. */
  predicate Outranked(g: seq<Row>, cfg: Config, r: Row) {
    InWithin(r, cfg) && exists a :: a in g && Beats(a, r, cfg)
  }

  /** `a` is a qualifying same-well row of `r`'s well with strictly more reads. */
  predicate Beats(a: Row, r: Row, cfg: Config) {
    InWithin(a, cfg) && a.firstWell == r.firstWell && r.firstReads < a.firstReads
  }

  /** The rows of `rows`, in order, that are not outranked in `g`. */
  function Unranked(g: seq<Row>, cfg: Config, rows: seq<Row>): (u: seq<Row>)
    ensures |u| <= |rows|
    ensures forall r :: r in u <==> r in rows && !Outranked(g, cfg, r)
    ensures (forall i :: 0 <= i < |rows| ==> !Outranked(g, cfg, rows[i])) ==> u == rows
  {
    if |rows| == 0 then []
    else
      var front := rows[..|rows| - 1];
      var last := rows[|rows| - 1];
      assert rows == front + [last];
      Unranked(g, cfg, front) + (if Outranked(g, cfg, last) then [] else [last])
  }

  // ---- The reducer as the program computes it --------------------------------

  /** Size of the subgroup of well `w`. */
  function WellSize(g: seq<Row>, cfg: Config, w: string): (n: nat)
    ensures n <= |g|
    ensures n == 0 <==> forall i :: 0 <= i < |g| ==> !InWell(g[i], cfg, w)
  {
    if |g| == 0 then 0
    else
      var front := g[..|g| - 1];
      assert forall i :: 0 <= i < |g| - 1 ==> g[i] == front[i];
      WellSize(front, cfg, w) + (if InWell(g[|g| - 1], cfg, w) then 1 else 0)
  }

  /** Largest read count in the subgroup of well `w`, if the subgroup is not empty. */
  function WellMax(g: seq<Row>, cfg: Config, w: string): (m: Option<int>)
    ensures m.None? <==> forall i :: 0 <= i < |g| ==> !InWell(g[i], cfg, w)
    ensures m.Some? ==> forall i :: 0 <= i < |g| && InWell(g[i], cfg, w) ==> g[i].firstReads <= m.value
    ensures m.Some? ==> exists i :: 0 <= i < |g| && InWell(g[i], cfg, w) && g[i].firstReads == m.value
  {
    if |g| == 0 then None
    else
      var front := g[..|g| - 1];
      var last := g[|g| - 1];
      assert forall i :: 0 <= i < |g| - 1 ==> g[i] == front[i];
      var m := WellMax(front, cfg, w);
      if !InWell(last, cfg, w) then m
      else match m
        case None => Some(last.firstReads)
        case Some(v) => if last.firstReads > v then Some(last.firstReads) else m
  }

  /** The program's drop decision for a row: it sits in a well subgroup with more
      than one row and its reads are strictly below that subgroup's maximum. */
  predicate Dropped(g: seq<Row>, cfg: Config, r: Row) {
    && InWithin(r, cfg)
    && WellSize(g, cfg, r.firstWell.value) > 1
    && match WellMax(g, cfg, r.firstWell.value)
       case None => false
       case Some(m) => r.firstReads < m
  }

  /** The rows of `rows` the program keeps. */
  function KeepRows(g: seq<Row>, cfg: Config, rows: seq<Row>): seq<Row> {
    if |rows| == 0 then []
    else
      KeepRows(g, cfg, rows[..|rows| - 1])
        + (if Dropped(g, cfg, rows[|rows| - 1]) then [] else [rows[|rows| - 1]])
  }

  /** Number of rows of `rows` the program drops: the length of its drop list. */
  function DropCount(g: seq<Row>, cfg: Config, rows: seq<Row>): (n: nat)
    ensures n + |KeepRows(g, cfg, rows)| == |rows|
  {
    if |rows| == 0 then 0
    else DropCount(g, cfg, rows[..|rows| - 1]) + (if Dropped(g, cfg, rows[|rows| - 1]) then 1 else 0)
  }

  /** A subgroup holding two different rows has more than one row. */
  lemma {:induction false} WellSizeTwo(g: seq<Row>, cfg: Config, w: string, i: nat, j: nat)
    requires i < j < |g| && InWell(g[i], cfg, w) && InWell(g[j], cfg, w)
    ensures WellSize(g, cfg, w) > 1
    decreases |g|
  {
    var front := g[..|g| - 1];
    assert forall k :: 0 <= k < |g| - 1 ==> g[k] == front[k];
    if j < |g| - 1 {
      WellSizeTwo(front, cfg, w, i, j);
    } else {
      assert InWell(front[i], cfg, w);
      assert WellSize(front, cfg, w) > 0;
    }
  }

  /** The program's drop decision agrees with the reference rule on the group's own rows. */
  lemma DroppedIffOutranked(g: seq<Row>, cfg: Config, i: nat)
    requires i < |g|
    ensures Dropped(g, cfg, g[i]) <==> Outranked(g, cfg, g[i])
  {
    var r := g[i];
    if Outranked(g, cfg, r) {
      var w := r.firstWell.value;
      var a :| a in g && Beats(a, r, cfg);
      var j :| 0 <= j < |g| && g[j] == a;
      assert InWell(g[i], cfg, w) && InWell(g[j], cfg, w);
      if i < j { WellSizeTwo(g, cfg, w, i, j); } else { WellSizeTwo(g, cfg, w, j, i); }
    } else if Dropped(g, cfg, r) {
      var w := r.firstWell.value;
      var j :| 0 <= j < |g| && InWell(g[j], cfg, w) && g[j].firstReads == WellMax(g, cfg, w).value;
      assert g[j] in g && Beats(g[j], r, cfg);
    }
  }

  /** The program's kept rows are exactly the reference's unranked rows. */
  lemma {:induction false} KeepRowsIsUnranked(g: seq<Row>, cfg: Config, rows: seq<Row>)
    requires forall r :: r in rows ==> r in g
    ensures KeepRows(g, cfg, rows) == Unranked(g, cfg, rows)
  {
    if |rows| > 0 {
      var front := rows[..|rows| - 1];
      var last := rows[|rows| - 1];
      assert rows == front + [last];
      KeepRowsIsUnranked(g, cfg, front);
      assert last in rows;
      var i :| 0 <= i < |g| && g[i] == last;
      DroppedIffOutranked(g, cfg, i);
    }
  }

  datatype Reduction = Reduction(kept: seq<Row>, removed: nat)

  /** Step 1 of the group classifier: drop the lower-read same-well duplicates and
      count them. The survivors are the group's unranked rows in their original
      order, and survivors plus removed rows account for the whole group. */
  function Reduce(g: seq<Row>, cfg: Config): (res: Reduction)
    ensures res.kept == Unranked(g, cfg, g)
    ensures |res.kept| + res.removed == |g|
  {
    if !exists i :: 0 <= i < |g| && InWithin(g[i], cfg) then
      Reduction(g, 0)
    else
      KeepRowsIsUnranked(g, cfg, g);
      Reduction(KeepRows(g, cfg, g), DropCount(g, cfg, g))
  }

  /** Only qualifying same-well rows that another row of their well beats on reads
      are dropped; every other row survives. */
  lemma DropRule(g: seq<Row>, cfg: Config, i: nat)
    requires i < |g|
    ensures g[i] !in Reduce(g, cfg).kept <==>
      && Qualifying(g[i], cfg)
      && SameWell(g[i])
      && exists j :: 0 <= j < |g| && InWithin(g[j], cfg) && g[j].firstWell == g[i].firstWell
                     && g[i].firstReads < g[j].firstReads
  {
    assert g[i] in g;
    if Outranked(g, cfg, g[i]) {
      var a :| a in g && Beats(a, g[i], cfg);
      var j :| 0 <= j < |g| && g[j] == a;
    } else {
      forall j | 0 <= j < |g|
        ensures InWithin(g[i], cfg) ==> !Beats(g[j], g[i], cfg)
      {
        assert g[j] in g;
      }
    }
  }

  /** A qualifying same-well row survives exactly when its reads equal its well's
      maximum, so rows tied at the maximum all survive. */
  lemma {:induction false} SurvivesIffAtWellMaximum(g: seq<Row>, cfg: Config, i: nat)
    requires i < |g| && InWithin(g[i], cfg)
    ensures WellMax(g, cfg, g[i].firstWell.value).Some?
    ensures g[i] in Reduce(g, cfg).kept <==> g[i].firstReads == WellMax(g, cfg, g[i].firstWell.value).value
  {
    var w := g[i].firstWell.value;
    assert InWell(g[i], cfg, w);
    var m := WellMax(g, cfg, w).value;
    if g[i].firstReads < m {
      var j :| 0 <= j < |g| && InWell(g[j], cfg, w) && g[j].firstReads == m;
      assert g[j] in g && Beats(g[j], g[i], cfg);
    } else {
      assert !Outranked(g, cfg, g[i]) by {
        forall a | a in g
          ensures !Beats(a, g[i], cfg)
        {
          if InWell(a, cfg, w) {
            var j :| 0 <= j < |g| && g[j] == a;
          }
        }
      }
    }
  }

  /** No survivor of the reducer is outranked among the survivors. */
  lemma SurvivorsNotOutranked(g: seq<Row>, cfg: Config, k: seq<Row>)
    requires k == Unranked(g, cfg, g)
    ensures forall i :: 0 <= i < |k| ==> !Outranked(k, cfg, k[i])
  {
    forall i | 0 <= i < |k|
      ensures !Outranked(k, cfg, k[i])
    {
      assert k[i] in k;
    }
  }

  /** Running the reducer on its own output drops nothing and returns it unchanged. */
  lemma ReduceIdempotent(g: seq<Row>, cfg: Config)
    ensures var k := Reduce(g, cfg).kept;
      Reduce(k, cfg).kept == k && Reduce(k, cfg).removed == 0
  {
    var k := Reduce(g, cfg).kept;
    SurvivorsNotOutranked(g, cfg, k);
    assert Unranked(k, cfg, k) == k;
  }
}

=== FILE: records.dfy ===
/**
 The comparison table of the B-cell classification engine: one row per pairwise
 comparison between a "first" and a "second" sequence observation, the
 configuration of a classification run, and the per-row similarity masks.
 */
module Records {

  /** A nullable cell of the table. */
  datatype Option<+T> = None | Some(value: T)

  /** Equality of two nullable cells as the table library evaluates it:
      a missing value equals nothing, not even another missing value. */
  predicate Matches<T(==)>(a: Option<T>, b: Option<T>) {
    a.Some? && b.Some? && a.value == b.value
  }

  /** Minimum identity (inclusive) for a row to count as a high-confidence match. */
  const QualifyingIdentityMin: real := 99.0

  /** Identity an "identical" same-subset match must have exactly. */
  const IdenticalMatchIdentity: real := 100.0

  /** One comparison row. `id` is the row's label in the table's index. */
  datatype Row = Row(
    id: nat,
    sequenceId: string,            // 1st_sequence_id, the group key
    identity: real,
    global: real,
    firstWell: Option<string>,     // 1st_sequence_or_well_id
    secondWell: Option<string>,    // 2nd_sequence_or_well_id
    firstDonor: Option<string>,    // 1st_real_subjectid
    secondDonor: Option<string>,   // 2nd_real_subjectid
    firstCellType: Option<string>,
    secondCellType: Option<string>,
    firstReads: int,               // 1st_mixcr_read
    firstEpitope: Option<string>,  // 1st_flowindex_epitope
    secondEpitope: Option<string>  // 2nd_flowindex_epitope
  )

  /** The parameters of a run: the target cell-type subset and the global-score threshold. */
  datatype Config = Config(subset: string, globalThreshold: real)

  /** The defaults of the classification entry points. */
  const DefaultConfig: Config := Config("Bcell", 50.0)

  /** The three values a label column can take. */
  datatype Label = Yes | No | YesAndNo

  /** The cell text written for a label. */
  function LabelText(l: Label): (t: string)
    ensures t in {"yes", "no", "yes and no"}
  {
    match l
    case Yes => "yes"
    case No => "no"
    case YesAndNo => "yes and no"
  }

  /** Different labels are written as different texts. */
  lemma LabelTextInjective(l: Label, m: Label)
    ensures LabelText(l) == LabelText(m) ==> l == m
  {
  }

  /** A row together with the three label cells; `None` is an unset cell. */
  datatype Labeled = Labeled(
    row: Row,
    unique: Option<Label>,        // unique_within_fna
    crossDonor: Option<Label>,    // cross_donor_fna
    crossEpitope: Option<Label>   // cross_epitope_fna
  )

  /** A row with every label cell unset. */
  function Unlabeled(r: Row): Labeled {
    Labeled(r, None, None, None)
  }

  // ---- Similarity masks ----------------------------------------------------

  /** High identity (inclusive bound) and high global score (strict bound). */
  predicate Qualifying(r: Row, cfg: Config) {
    r.identity >= QualifyingIdentityMin && r.global > cfg.globalThreshold
  }

  predicate SameWell(r: Row) {
    Matches(r.firstWell, r.secondWell)
  }

  predicate SameDonor(r: Row) {
    Matches(r.firstDonor, r.secondDonor)
  }

  /** The first cell type is the configured subset. */
  predicate SubsetMember(r: Row, cfg: Config) {
    r.firstCellType == Some(cfg.subset)
  }

  /** Both cell types are the subset, identity is exactly 100 and the global score passes. */
  predicate IdenticalSubsetMatch(r: Row, cfg: Config) {
    && r.firstCellType == Some(cfg.subset)
    && r.secondCellType == Some(cfg.subset)
    && r.identity == IdenticalMatchIdentity
    && r.global > cfg.globalThreshold
  }

  /** The exact-100 test of the uniqueness rule is stricter than the qualifying mask:
      every identical subset match is qualifying, but a qualifying row may have an
      identity anywhere in [99, 100) and still not be an identical match. */
  lemma IdenticalMatchIsQualifying(r: Row, cfg: Config)
    ensures IdenticalSubsetMatch(r, cfg) ==> Qualifying(r, cfg)
    ensures r.identity == QualifyingIdentityMin && r.global > cfg.globalThreshold
            ==> Qualifying(r, cfg) && !IdenticalSubsetMatch(r, cfg)
    ensures r.global == cfg.globalThreshold ==> !Qualifying(r, cfg) && !IdenticalSubsetMatch(r, cfg)
  {
  }

  /** A missing well or donor never makes a row same-well or same-donor. */
  lemma MissingNeverMatches(r: Row)
    ensures r.firstWell.None? || r.secondWell.None? ==> !SameWell(r)
    ensures r.firstDonor.None? || r.secondDonor.None? ==> !SameDonor(r)
  {
  }
}

=== FILE: scenarios.dfy ===
/**
 Properties proved on concrete comparison tables: the reducer's tie rule, the
 exact-100 uniqueness test, the donor and epitope labels of a small group, and
 the tables on which the merge as written fails.
 */
module Scenarios {
  import opened Records
  import opened Dedup
  import opened Classify
  import opened Table

  /** A B-cell to B-cell comparison in group "s1" between two donors and the same
      epitope, with the given row id, well, identity and read support. */
  function Pair(id: nat, well: string, identity: real, support: int): (r: Row)
    ensures r.id == id && r.sequenceId == "s1" && r.firstReads == support
    ensures SameWell(r) && !SameDonor(r) && SubsetMember(r, DefaultConfig)
    ensures Qualifying(r, DefaultConfig) <==> identity >= 99.0
  {
    Row(id, "s1", identity, 60.0, Some(well), Some(well), Some("d1"), Some("d2"),
        Some("Bcell"), Some("Bcell"), support, Some("e1"), Some("e1"))
  }

  /** Two rows of one well with reads 10 and 20: the 10-read row is dropped. */
  lemma LowerReadRowDropped()
    ensures var g := [Pair(0, "w1", 100.0, 10), Pair(1, "w1", 100.0, 20)];
      Reduce(g, DefaultConfig).kept == [g[1]] && Reduce(g, DefaultConfig).removed == 1
  {
    var g := [Pair(0, "w1", 100.0, 10), Pair(1, "w1", 100.0, 20)];
    var cfg := DefaultConfig;
    assert Beats(g[1], g[0], cfg) && g[1] in g;
    assert !Outranked(g, cfg, g[1]) by {
      forall a | a in g
        ensures !Beats(a, g[1], cfg)
      {
      }
    }
    assert g[..1] == [g[0]] && [g[0]][..0] == [];
    assert Unranked(g, cfg, [g[0]]) == [];
  }

  /** Two rows of one well tied at 20 reads: both survive and nothing is removed. */
  lemma TiedRowsBothSurvive()
    ensures var g := [Pair(0, "w1", 100.0, 20), Pair(1, "w1", 100.0, 20)];
      Reduce(g, DefaultConfig).kept == g && Reduce(g, DefaultConfig).removed == 0
  {
    var g := [Pair(0, "w1", 100.0, 20), Pair(1, "w1", 100.0, 20)];
    assert !Outranked(g, DefaultConfig, g[0]) && !Outranked(g, DefaultConfig, g[1]);
  }

  /** A group whose only subset-to-subset match has identity 99.5 is unique
      within; it becomes not unique once one match has identity exactly 100. */
  lemma UniqueNeedsExactly100()
    ensures UniqueWithin([Pair(0, "w1", 99.5, 10)], DefaultConfig) == Yes
    ensures UniqueWithin([Pair(0, "w1", 99.5, 10), Pair(1, "w2", 100.0, 10)], DefaultConfig) == No
  {
    var s := [Pair(0, "w1", 99.5, 10), Pair(1, "w2", 100.0, 10)];
    assert IdenticalSubsetMatch(s[1], DefaultConfig);
  }

  /** One qualifying row between two donors: the cross-donor label is yes. */
  lemma DifferentDonorsCrossDonorYes()
    ensures CrossDonor(Qualifiers([Pair(0, "w1", 100.0, 10)], DefaultConfig)) == Some(Yes)
  {
    var s := [Pair(0, "w1", 100.0, 10)];
    CrossDonorRule(s, DefaultConfig, 0);
  }

  /** One qualifying row whose epitopes agree: the cross-epitope label is no. */
  lemma SameEpitopeCrossEpitopeNo()
    ensures CrossEpitope(Qualifiers([Pair(0, "w1", 100.0, 10)], DefaultConfig)).verdict == Some(No)
  {
    var s := [Pair(0, "w1", 100.0, 10)];
    CrossEpitopeRule(s, DefaultConfig, 0, 0);
  }

  /** A two-row table whose rows share a group and a well, both qualifying, the
      first with fewer reads: the reducer drops the first row, so the reindex as
      written fails, while the corrected merge leaves that row without labels. */
  lemma {:induction false} OutrankedPairBreaksReindex(a: Row, b: Row, cfg: Config)
    requires InWithin(a, cfg) && InWithin(b, cfg)
    requires a.sequenceId == b.sequenceId && a.firstWell == b.firstWell && a.id != b.id
    requires a.firstReads < b.firstReads
    ensures ClassifyAllAsWritten([a, b], cfg).None?
    ensures ClassifyAll([a, b], cfg).rows[0] == Unlabeled(a)
  {
    OutrankedPairShape(a, b, cfg);
    AsWrittenFailsOnDroppedRow([a, b], cfg, 0);
    if SubsetMember(a, cfg) {
      MergeCarriesGroupLabels([a, b], cfg, 0);
    }
  }

  /** The two rows form one group with distinct ids, in which the first row is
      outranked by the second. */
  lemma OutrankedPairShape(a: Row, b: Row, cfg: Config)
    requires InWithin(a, cfg) && InWithin(b, cfg)
    requires a.sequenceId == b.sequenceId && a.firstWell == b.firstWell && a.id != b.id
    requires a.firstReads < b.firstReads
    ensures DistinctIds([a, b])
    ensures Outranked(GroupOf([a, b], a.sequenceId), cfg, a)
  {
    var df := [a, b];
    assert df[..1] == [a] && [a][..0] == [];
    assert GroupOf(df, a.sequenceId) == df;
    assert Beats(b, a, cfg) && b in df;
  }

  /** The rows of `LowerReadRowDropped` as a table: the reindex as written fails. */
  lemma DroppedRowBreaksReindex()
    ensures ClassifyAllAsWritten([Pair(0, "w1", 100.0, 10), Pair(1, "w1", 100.0, 20)], DefaultConfig).None?
  {
    OutrankedPairBreaksReindex(Pair(0, "w1", 100.0, 10), Pair(1, "w1", 100.0, 20), DefaultConfig);
  }

  /** A one-row table whose only comparison has identity 50: no row qualifies, so
      the merge as written fails on a broadcast column no group created, while the
      corrected merge labels the row unique and leaves its broadcast cells unset. */
  lemma LowIdentityRowBreaksMerge()
    ensures ClassifyAllAsWritten([Pair(0, "w1", 50.0, 10)], DefaultConfig).None?
    ensures ClassifyAll([Pair(0, "w1", 50.0, 10)], DefaultConfig).rows[0].unique == Some(Yes)
    ensures ClassifyAll([Pair(0, "w1", 50.0, 10)], DefaultConfig).rows[0].crossDonor.None?
    ensures ClassifyAll([Pair(0, "w1", 50.0, 10)], DefaultConfig).rows[0].crossEpitope.None?
  {
    var df := [Pair(0, "w1", 50.0, 10)];
    AsWrittenFailsWithoutColumn(df, DefaultConfig);
    MergeWithoutQualifierUnset(df, DefaultConfig);
    LowIdentityRowUnique(df[0]);
  }

  /** A lone subset row with no identical match is labelled unique by the merge. */
  lemma LowIdentityRowUnique(r: Row)
    requires SubsetMember(r, DefaultConfig) && !Qualifying(r, DefaultConfig)
    requires !IdenticalSubsetMatch(r, DefaultConfig)
    ensures ClassifyAll([r], DefaultConfig).rows[0].unique == Some(Yes)
  {
    var df := [r];
    var cfg := DefaultConfig;
    assert df[..0] == [];
    assert GroupOf(df, r.sequenceId) == df;
    assert !Outranked(df, cfg, r);
    assert DistinctIds(df);
    MergeCarriesGroupLabels(df, cfg, 0);
    assert Unranked(df, cfg, df) == df;
    UniqueWithinRule(df, cfg, 0);
  }

  /** The empty table has no subset row, so the merge as written fails on the
      uniqueness column, while the corrected merge yields the empty table. */
  lemma EmptyTableBreaksMerge()
    ensures ClassifyAllAsWritten([], DefaultConfig).None?
    ensures ClassifyAll([], DefaultConfig).rows == []
  {
    AsWrittenFailsWithoutColumn([], DefaultConfig);
  }
}

=== FILE: table.dfy ===
/**
 Classification of a whole comparison table: partition by `1st_sequence_id`,
 classify every group, sum the per-group counters, rename the three label
 columns with the subset suffix and write the labels back into the subset rows.
 */
module Table {
  import opened Records
  import opened Text
  import opened Dedup
  import opened Classify

  // ---- Partition ------------------------------------------------------------

  /** The rows of the group with key `key`, in table order. */
  function GroupOf(df: seq<Row>, key: string): (g: seq<Row>)
    ensures |g| <= |df|
    ensures forall r :: r in g <==> r in df && r.sequenceId == key
  {
    if |df| == 0 then []
    else
      var last := df[|df| - 1];
      assert df == df[..|df| - 1] + [last];
      GroupOf(df[..|df| - 1], key) + (if last.sequenceId == key then [last] else [])
  }

  /** The group key of every row, in table order. */
  function SequenceIds(df: seq<Row>): seq<string> {
    seq(|df|, i requires 0 <= i < |df| => df[i].sequenceId)
  }

  /** The group keys, each once, in order of first appearance. */
  function GroupKeys(df: seq<Row>): (keys: seq<string>)
    ensures NoDuplicates(keys)
    ensures forall i :: 0 <= i < |df| ==> df[i].sequenceId in keys
    ensures forall k :: k in keys ==> exists i :: 0 <= i < |df| && df[i].sequenceId == k
  {
    var ids := SequenceIds(df);
    assert forall i :: 0 <= i < |df| ==> df[i].sequenceId == ids[i] && ids[i] in ids;
    Distinct(ids)
  }

  /** Total size of the groups `keys`. */
  function SizeSum(df: seq<Row>, keys: seq<string>): nat {
    if |keys| == 0 then 0
    else SizeSum(df, keys[..|keys| - 1]) + |GroupOf(df, keys[|keys| - 1])|
  }

  /** How many entries of `keys` equal `x`. */
  function Hits(keys: seq<string>, x: string): nat {
    if |keys| == 0 then 0
    else Hits(keys[..|keys| - 1], x) + (if keys[|keys| - 1] == x then 1 else 0)
  }

  lemma {:induction false} HitsDistinct(keys: seq<string>, x: string)
    requires NoDuplicates(keys)
    ensures Hits(keys, x) == if x in keys then 1 else 0
  {
    if |keys| > 0 {
      var front := keys[..|keys| - 1];
      assert keys == front + [keys[|keys| - 1]];
      HitsDistinct(front, x);
      if keys[|keys| - 1] == x {
        assert x !in front;
      }
    }
  }

  /** Appending a row grows exactly the groups whose key is the row's key. */
  lemma {:induction false} SizeSumStep(df: seq<Row>, r: Row, keys: seq<string>)
    ensures SizeSum(df + [r], keys) == SizeSum(df, keys) + Hits(keys, r.sequenceId)
  {
    if |keys| > 0 {
      SizeSumStep(df, r, keys[..|keys| - 1]);
      assert (df + [r])[..|df + [r]| - 1] == df;
    }
  }

  /** Distinct keys that cover every row partition the table: the group sizes sum
      to the number of rows. */
  lemma {:induction false} PartitionCovers(df: seq<Row>, keys: seq<string>)
    requires NoDuplicates(keys)
    requires forall i :: 0 <= i < |df| ==> df[i].sequenceId in keys
    ensures SizeSum(df, keys) == |df|
  {
    if |df| == 0 {
      SizeSumEmpty(keys);
    } else {
      var front := df[..|df| - 1];
      var last := df[|df| - 1];
      assert df == front + [last];
      PartitionCovers(front, keys);
      SizeSumStep(front, last, keys);
      HitsDistinct(keys, last.sequenceId);
    }
  }

  lemma {:induction false} SizeSumEmpty(keys: seq<string>)
    ensures SizeSum([], keys) == 0
  {
    if |keys| > 0 {
      SizeSumEmpty(keys[..|keys| - 1]);
    }
  }

  // ---- Classifying every group -----------------------------------------------

  datatype Batch = Batch(rows: seq<Labeled>, removed: nat, emptyEpitope: nat)

  /** Classifies the groups `keys` in turn, concatenating their labelled rows and
      summing their removed-row and empty-epitope counters. */
  function ClassifyGroups(df: seq<Row>, cfg: Config, keys: seq<string>): (b: Batch)
    ensures |b.rows| + b.removed == SizeSum(df, keys)
    ensures b.emptyEpitope <= |keys|
    ensures forall l :: l in b.rows ==> l.row in df && l.row.sequenceId in keys
  {
    if |keys| == 0 then Batch([], 0, 0)
    else
      var front := keys[..|keys| - 1];
      var key := keys[|keys| - 1];
      var b := ClassifyGroups(df, cfg, front);
      var g := GroupOf(df, key);
      var res := ClassifyGroup(g, cfg);
      GroupRowsBelong(g, cfg);
      Batch(b.rows + res.rows, b.removed + res.removed, b.emptyEpitope + res.emptyEpitope)
  }

  /** The group with key `key` counts as a both-empty epitope group (its epitope
      step says "no" against the canonical value "empty", `CrossEpitopeRule`). */
  predicate ReportsBothEmpty(df: seq<Row>, cfg: Config, key: string) {
    ClassifyGroup(GroupOf(df, key), cfg).emptyEpitope == 1
  }

  /** The keys among `keys` whose group counts as a both-empty epitope group. */
  function BothEmptyKeys(df: seq<Row>, cfg: Config, keys: seq<string>): set<string> {
    set k | k in keys && ReportsBothEmpty(df, cfg, k)
  }

  /** Over distinct keys, the fold's empty-epitope total is the number of groups
      that count as both-empty. */
  lemma {:induction false} EmptyEpitopeCountsGroups(df: seq<Row>, cfg: Config, keys: seq<string>)
    requires NoDuplicates(keys)
    ensures ClassifyGroups(df, cfg, keys).emptyEpitope == |BothEmptyKeys(df, cfg, keys)|
  {
    if |keys| > 0 {
      var front := keys[..|keys| - 1];
      var key := keys[|keys| - 1];
      assert NoDuplicates(front);
      EmptyEpitopeCountsGroups(df, cfg, front);
      assert key !in front;
      GroupCountIsFlag(df, cfg, key);
      BothEmptyKeysStep(df, cfg, keys);
      CardAddFresh(BothEmptyKeys(df, cfg, front), key, ReportsBothEmpty(df, cfg, key));
    }
  }

  /** A group's empty-epitope count is 1 when it counts as both-empty and 0 otherwise. */
  lemma GroupCountIsFlag(df: seq<Row>, cfg: Config, key: string)
    ensures ClassifyGroup(GroupOf(df, key), cfg).emptyEpitope == if ReportsBothEmpty(df, cfg, key) then 1 else 0
  {
  }

  /** Appending a key not seen before adds it to the both-empty keys exactly when
      its group counts as both-empty. */
  lemma BothEmptyKeysStep(df: seq<Row>, cfg: Config, keys: seq<string>)
    requires |keys| > 0 && keys[|keys| - 1] !in keys[..|keys| - 1]
    ensures var front := keys[..|keys| - 1];
      var key := keys[|keys| - 1];
      && key !in BothEmptyKeys(df, cfg, front)
      && BothEmptyKeys(df, cfg, keys) ==
           BothEmptyKeys(df, cfg, front) + (if ReportsBothEmpty(df, cfg, key) then {key} else {})
  {
    assert keys == keys[..|keys| - 1] + [keys[|keys| - 1]];
  }

  /** Adding a fresh element, or nothing, grows a set's size by one, or by nothing. */
  lemma CardAddFresh(a: set<string>, x: string, add: bool)
    requires x !in a
    ensures |a + (if add then {x} else {})| == |a| + (if add then 1 else 0)
  {
    if !add {
      assert a + {} == a;
    }
  }

  /** Every labelled row of a group's classification is a row of that group. */
  lemma GroupRowsBelong(g: seq<Row>, cfg: Config)
    ensures forall l :: l in ClassifyGroup(g, cfg).rows ==> l.row in g
  {
    var res := ClassifyGroup(g, cfg);
    forall l | l in res.rows
      ensures l.row in g
    {
      var j :| 0 <= j < |res.rows| && res.rows[j] == l;
      assert RowsOf(res.rows)[j] == l.row;
      assert l.row in Unranked(g, cfg, g);
    }
  }

  // ---- Column names ------------------------------------------------------------

  const LabelBaseNames: seq<string> := ["unique_within_fna", "cross_donor_fna", "cross_epitope_fna"]

  /** `_<subset>`, or `_all` when the subset is empty. */
  function Suffix(subset: string): string {
    if subset != [] then "_" + subset else "_all"
  }

  /** The renamed label columns: each base name followed by the subset suffix. */
  function LabelColumns(subset: string): seq<string> {
    seq(3, i requires 0 <= i < 3 => LabelBaseNames[i] + Suffix(subset))
  }

  /** The three renamed columns are distinct and each is its base name followed
      by `_<subset>`, or `_all` for the empty subset; distinct non-empty subsets
      get distinct columns, while the empty subset shares its columns with the
      subset literally named "all". */
  lemma LabelColumnsShape(subset: string, other: string)
    ensures NoDuplicates(LabelColumns(subset))
    ensures forall i :: 0 <= i < 3 ==> LabelColumns(subset)[i][..|LabelBaseNames[i]|] == LabelBaseNames[i]
    ensures forall i :: 0 <= i < 3 ==>
      |LabelBaseNames[i]| < |LabelColumns(subset)[i]| && LabelColumns(subset)[i][|LabelBaseNames[i]|] == '_'
    ensures forall i :: 0 <= i < 3 ==>
      |LabelBaseNames[i]| < |LabelColumns(subset)[i]| &&
      LabelColumns(subset)[i][|LabelBaseNames[i]| + 1..] == (if subset != [] then subset else "all")
    ensures subset != [] && other != [] && subset != other ==> LabelColumns(subset) != LabelColumns(other)
    ensures LabelColumns([]) == LabelColumns("all")
  {
    ColumnsDistinct(subset);
    forall i | 0 <= i < 3 {
      ColumnAfterBase(subset, i);
    }
    if subset != [] && other != [] && subset != other {
      ColumnAfterBase(other, 0);
    }
    assert Suffix([]) == Suffix("all");
  }

  /** The three renamed columns differ: their base names already do. */
  lemma ColumnsDistinct(subset: string)
    ensures NoDuplicates(LabelColumns(subset))
  {
    var c := LabelColumns(subset);
    assert c[0][0] == 'u' && c[1][0] == 'c' && c[2][0] == 'c';
    assert c[1][6] == 'd' && c[2][6] == 'e';
  }

  /** A renamed column is its base name, then `_`, then the subset name, or
      `all` for the empty subset. */
  lemma ColumnAfterBase(subset: string, i: nat)
    requires i < 3
    ensures |LabelBaseNames[i]| < |LabelColumns(subset)[i]|
    ensures LabelColumns(subset)[i][..|LabelBaseNames[i]|] == LabelBaseNames[i]
    ensures LabelColumns(subset)[i][|LabelBaseNames[i]|] == '_'
    ensures LabelColumns(subset)[i][|LabelBaseNames[i]| + 1..] == (if subset != [] then subset else "all")
  {
    var b := LabelBaseNames[i];
    assert LabelColumns(subset)[i] == b + Suffix(subset);
    SuffixShape(subset);
    ConcatParts(b, Suffix(subset));
  }

  /** The suffix is `_` followed by the subset name, or by `all` for the empty subset. */
  lemma SuffixShape(subset: string)
    ensures |Suffix(subset)| > 0 && Suffix(subset)[0] == '_'
    ensures Suffix(subset)[1..] == if subset != [] then subset else "all"
  {
  }

  lemma ConcatParts(b: string, t: string)
    ensures (b + t)[..|b|] == b && (b + t)[|b|..] == t
    ensures |t| > 0 ==> (b + t)[|b|] == t[0] && (b + t)[|b| + 1..] == t[1..]
  {
  }

  // ---- Merge back --------------------------------------------------------------

  /** The first labelled row whose row id is `id`. */
  function Lookup(ls: seq<Labeled>, id: nat): (o: Option<Labeled>)
    ensures o.None? <==> forall j :: 0 <= j < |ls| ==> ls[j].row.id != id
    ensures o.Some? ==> o.value in ls && o.value.row.id == id
  {
    if |ls| == 0 then None
    else if ls[0].row.id == id then Some(ls[0])
    else
      var o := Lookup(ls[1..], id);
      assert forall j :: 1 <= j < |ls| ==> ls[j] == ls[1..][j - 1];
      o
  }

  lemma {:induction false} LookupConcat(a: seq<Labeled>, b: seq<Labeled>, id: nat)
    ensures Lookup(a + b, id) == if Lookup(a, id).Some? then Lookup(a, id) else Lookup(b, id)
  {
    if |a| > 0 {
      assert (a + b)[1..] == a[1..] + b;
      LookupConcat(a[1..], b, id);
    } else {
      assert a + b == b;
    }
  }

  /** Row `r` of the input table with the labels the classification gave it: a
      subset member takes the labels of its classified row, and a row dropped by the
      reducer or outside the subset gets none. */
  function MergeRow(r: Row, cfg: Config, classified: seq<Labeled>): (m: Labeled)
    ensures m.row == r
    ensures !SubsetMember(r, cfg) ==> m == Unlabeled(r)
  {
    if !SubsetMember(r, cfg) then Unlabeled(r)
    else match Lookup(classified, r.id)
      case None => Unlabeled(r)
      case Some(l) => Labeled(r, l.unique, l.crossDonor, l.crossEpitope)
  }

  datatype Classification = Classification(
    columns: seq<string>,
    rows: seq<Labeled>,
    totalRemoved: nat,
    totalEmptyEpitope: nat)

  /** Classifies the whole table. The output has one row per input row, in order;
      rows outside the subset carry no label; the counters are the sums over the
      groups, at most one empty-epitope count per group. */
  function ClassifyAll(df: seq<Row>, cfg: Config): (c: Classification)
    ensures c.columns == LabelColumns(cfg.subset)
    ensures |c.rows| == |df|
    ensures forall i :: 0 <= i < |df| ==> c.rows[i].row == df[i]
    ensures forall i :: 0 <= i < |df| && !SubsetMember(df[i], cfg) ==> c.rows[i] == Unlabeled(df[i])
    ensures c.totalRemoved <= |df|
    ensures c.totalEmptyEpitope <= |GroupKeys(df)|
  {
    var keys := GroupKeys(df);
    var b := ClassifyGroups(df, cfg, keys);
    PartitionCovers(df, keys);
    Classification(LabelColumns(cfg.subset), MergeRows(df, cfg, b.rows), b.removed, b.emptyEpitope)
  }

  /** `MergeRow` applied to every row of the table. */
  function MergeRows(df: seq<Row>, cfg: Config, classified: seq<Labeled>): seq<Labeled> {
    seq(|df|, i requires 0 <= i < |df| => MergeRow(df[i], cfg, classified))
  }

  /** The table's empty-epitope total is the number of groups that count as
      both-empty, each group at most once. */
  lemma TotalEmptyEpitopeCountsGroups(df: seq<Row>, cfg: Config)
    ensures ClassifyAll(df, cfg).totalEmptyEpitope == |BothEmptyKeys(df, cfg, GroupKeys(df))|
  {
    EmptyEpitopeCountsGroups(df, cfg, GroupKeys(df));
  }

  /** Every input row is either the survivor of a classified group or counted as
      removed. */
  lemma TotalsAccountForTable(df: seq<Row>, cfg: Config)
    ensures var keys := GroupKeys(df);
      |ClassifyGroups(df, cfg, keys).rows| + ClassifyAll(df, cfg).totalRemoved == |df|
  {
    PartitionCovers(df, GroupKeys(df));
  }

  predicate DistinctIds(df: seq<Row>) {
    forall a, b :: 0 <= a < b < |df| ==> df[a].id != df[b].id
  }

  /** With distinct ids, table rows other than `df[i]` all have ids other than
      `df[i]`'s. */
  lemma ForeignRowsMissId(df: seq<Row>, i: nat, ls: seq<Labeled>)
    requires DistinctIds(df) && i < |df|
    requires forall k :: 0 <= k < |ls| ==> ls[k].row in df && ls[k].row != df[i]
    ensures forall k :: 0 <= k < |ls| ==> ls[k].row.id != df[i].id
  {
    forall k | 0 <= k < |ls|
      ensures ls[k].row.id != df[i].id
    {
      OtherRowOtherId(df, i, ls[k].row);
    }
  }

  /** With distinct ids, a table row other than `df[i]` has a different id. */
  lemma OtherRowOtherId(df: seq<Row>, i: nat, r: Row)
    requires DistinctIds(df) && i < |df| && r in df && r != df[i]
    ensures r.id != df[i].id
  {
    var x :| 0 <= x < |df| && df[x] == r;
  }

  /** Every row of `ls` is a table row with key `key`. */
  predicate BlockOf(df: seq<Row>, key: string, ls: seq<Labeled>) {
    forall k :: 0 <= k < |ls| ==> ls[k].row in df && ls[k].row.sequenceId == key
  }

  /** The labelled rows of the group with key `key` are table rows with that key. */
  lemma GroupRowsInTable(df: seq<Row>, cfg: Config, key: string)
    ensures BlockOf(df, key, ClassifyGroup(GroupOf(df, key), cfg).rows)
  {
    var g := GroupOf(df, key);
    RowsAmong(ClassifyGroup(g, cfg).rows, Unranked(g, cfg, g));
  }

  /** Labelled rows whose rows form `u` each carry a row of `u`. */
  lemma RowsAmong(ls: seq<Labeled>, u: seq<Row>)
    requires RowsOf(ls) == u
    ensures forall k :: 0 <= k < |ls| ==> ls[k].row in u
  {
    forall k | 0 <= k < |ls|
      ensures ls[k].row in u
    {
      assert RowsOf(ls)[k] == ls[k].row;
    }
  }

  /** With distinct ids, labelled table rows of groups other than `df[i]`'s never
      carry `df[i]`'s id. */
  lemma {:induction false} OtherGroupsMissId(df: seq<Row>, i: nat, ls: seq<Labeled>, keys: seq<string>)
    requires DistinctIds(df) && i < |df| && df[i].sequenceId !in keys
    requires forall l :: l in ls ==> l.row in df && l.row.sequenceId in keys
    ensures Lookup(ls, df[i].id).None?
  {
    forall k | 0 <= k < |ls|
      ensures ls[k].row in df && ls[k].row != df[i]
    {
      assert ls[k] in ls;
    }
    ForeignRowsMissId(df, i, ls);
  }

  /** In the concatenated classification of distinct keys, the labelled row found
      for an id whose table row belongs to group `key` is the one found in that
      group's own classification. */
  lemma {:induction false} LookupFindsOwnGroup(df: seq<Row>, cfg: Config, keys: seq<string>, i: nat)
    requires DistinctIds(df) && i < |df|
    requires NoDuplicates(keys) && df[i].sequenceId in keys
    ensures Lookup(ClassifyGroups(df, cfg, keys).rows, df[i].id)
         == Lookup(ClassifyGroup(GroupOf(df, df[i].sequenceId), cfg).rows, df[i].id)
  {
    var front := keys[..|keys| - 1];
    var key := keys[|keys| - 1];
    assert keys == front + [key];
    var a := ClassifyGroups(df, cfg, front).rows;
    var block := ClassifyGroup(GroupOf(df, key), cfg).rows;
    assert ClassifyGroups(df, cfg, keys).rows == a + block;
    GroupRowsInTable(df, cfg, key);
    LookupStep(df, i, a, front, block, key);
    if key != df[i].sequenceId {
      LookupFindsOwnGroup(df, cfg, front, i);
    }
  }

  /** One step of the fold: appending the block of group `key` to the labelled
      rows `a` of the groups `front` leaves an id's lookup in `a` unchanged, unless
      the id's row belongs to `key`, whose rows `a` does not hold. */
  lemma LookupStep(df: seq<Row>, i: nat, a: seq<Labeled>, front: seq<string>, block: seq<Labeled>, key: string)
    requires DistinctIds(df) && i < |df|
    requires forall l :: l in a ==> l.row in df && l.row.sequenceId in front
    requires BlockOf(df, key, block)
    requires df[i].sequenceId in front + [key] && key !in front
    ensures key == df[i].sequenceId ==> Lookup(a + block, df[i].id) == Lookup(block, df[i].id)
    ensures key != df[i].sequenceId ==> Lookup(a + block, df[i].id) == Lookup(a, df[i].id)
  {
    LookupConcat(a, block, df[i].id);
    if key == df[i].sequenceId {
      OtherGroupsMissId(df, i, a, front);
    } else {
      BlockMissesForeignId(df, i, block, key);
    }
  }

  /** With distinct ids, the labelled table rows of a group other than `df[i]`'s
      never carry `df[i]`'s id. */
  lemma {:induction false} BlockMissesForeignId(df: seq<Row>, i: nat, block: seq<Labeled>, key: string)
    requires DistinctIds(df) && i < |df| && key != df[i].sequenceId
    requires BlockOf(df, key, block)
    ensures Lookup(block, df[i].id).None?
  {
    ForeignRowsMissId(df, i, block);
  }

  /** With distinct ids, a table row among the rows of `ls`, all of which come
      from the table, is found by its id, and the row found is that row. */
  lemma {:induction false} PresentRowFound(df: seq<Row>, i: nat, ls: seq<Labeled>)
    requires DistinctIds(df) && i < |df|
    requires forall k :: 0 <= k < |ls| ==> ls[k].row in df
    requires df[i] in RowsOf(ls)
    ensures Lookup(ls, df[i].id).Some? && Lookup(ls, df[i].id).value.row == df[i]
  {
    var j :| 0 <= j < |ls| && RowsOf(ls)[j] == df[i];
    assert ls[j].row.id == df[i].id;
    var l := Lookup(ls, df[i].id).value;
    assert l in ls;
    var k :| 0 <= k < |ls| && ls[k] == l;
    if l.row != df[i] {
      OtherRowOtherId(df, i, l.row);
    }
  }

  /** A table row is among its group's classified rows exactly when the reducer
      does not drop it, that is, when it is not outranked within its group. */
  lemma SurvivorIffNotOutranked(df: seq<Row>, cfg: Config, i: nat)
    requires i < |df|
    ensures var g := GroupOf(df, df[i].sequenceId);
      df[i] in RowsOf(ClassifyGroup(g, cfg).rows) <==> !Outranked(g, cfg, df[i])
  {
    var g := GroupOf(df, df[i].sequenceId);
    assert df[i] in g;
    assert RowsOf(ClassifyGroup(g, cfg).rows) == Unranked(g, cfg, g);
  }

  /** With distinct row ids, a subset row that survived its group's reducer carries
      exactly the labels the group classifier gave it, and one the reducer dropped
      carries no label. */
  lemma MergeCarriesGroupLabels(df: seq<Row>, cfg: Config, i: nat)
    requires DistinctIds(df) && i < |df| && SubsetMember(df[i], cfg)
    ensures var g := GroupOf(df, df[i].sequenceId);
      && (!Outranked(g, cfg, df[i]) ==> ClassifyAll(df, cfg).rows[i] in ClassifyGroup(g, cfg).rows)
      && (Outranked(g, cfg, df[i]) ==> ClassifyAll(df, cfg).rows[i] == Unlabeled(df[i]))
  {
    SurvivorIffNotOutranked(df, cfg, i);
    var keys := GroupKeys(df);
    var all := ClassifyGroups(df, cfg, keys).rows;
    var rows := ClassifyGroup(GroupOf(df, df[i].sequenceId), cfg).rows;
    LookupFindsOwnGroup(df, cfg, keys, i);
    GroupRowsInTable(df, cfg, df[i].sequenceId);
    assert ClassifyAll(df, cfg).rows[i] == MergeRow(df[i], cfg, all);
    MergeFromBlock(df, cfg, i, all, rows);
  }

  /** The merge of a subset row against labelled rows `all` that agree, on that
      row's id, with the table rows `rows`: the row's own labelled entry when it
      is among `rows`, no label otherwise. */
  lemma {:induction false} MergeFromBlock(df: seq<Row>, cfg: Config, i: nat, all: seq<Labeled>, rows: seq<Labeled>)
    requires DistinctIds(df) && i < |df| && SubsetMember(df[i], cfg)
    requires forall k :: 0 <= k < |rows| ==> rows[k].row in df
    requires Lookup(all, df[i].id) == Lookup(rows, df[i].id)
    ensures df[i] in RowsOf(rows) ==> MergeRow(df[i], cfg, all) in rows
    ensures df[i] !in RowsOf(rows) ==> MergeRow(df[i], cfg, all) == Unlabeled(df[i])
  {
    if df[i] in RowsOf(rows) {
      PresentRowFound(df, i, rows);
      var l := Lookup(rows, df[i].id).value;
      assert l == Labeled(df[i], l.unique, l.crossDonor, l.crossEpitope);
    } else {
      AbsentRowNotFound(df, i, rows);
    }
  }

  /** With distinct ids, a table row that is not among the table rows of `ls` has
      no entry in `ls`. */
  lemma {:induction false} AbsentRowNotFound(df: seq<Row>, i: nat, ls: seq<Labeled>)
    requires DistinctIds(df) && i < |df|
    requires forall k :: 0 <= k < |ls| ==> ls[k].row in df
    requires df[i] !in RowsOf(ls)
    ensures Lookup(ls, df[i].id).None?
  {
    forall k | 0 <= k < |ls|
      ensures ls[k].row != df[i]
    {
      assert RowsOf(ls)[k] == ls[k].row;
    }
    ForeignRowsMissId(df, i, ls);
  }

  // ---- The reindex as written ----------------------------------------------------

  /** Reindexing the classified rows by the input table's ids as the table library
      does it: the lookup fails as a whole when any input id is missing from the
      classified rows. */
  function ReindexAsWritten(classified: seq<Labeled>, df: seq<Row>): (o: Option<seq<Labeled>>)
    ensures o.Some? <==> forall i :: 0 <= i < |df| ==> Lookup(classified, df[i].id).Some?
    ensures o.Some? ==> |o.value| == |df|
    ensures o.Some? ==> forall i :: 0 <= i < |df| ==> o.value[i] == Lookup(classified, df[i].id).value
  {
    if |df| == 0 then Some([])
    else
      var front := df[..|df| - 1];
      assert forall i :: 0 <= i < |df| - 1 ==> df[i] == front[i];
      match ReindexAsWritten(classified, front)
      case None => None
      case Some(rows) =>
        match Lookup(classified, df[|df| - 1].id)
        case None => None
        case Some(l) => Some(rows + [l])
  }

  /** Whether each of the three label columns has a set cell among `ls`. A group
      writes a label column only through a non-empty mask, so after the groups are
      concatenated a label column exists exactly when some labelled row sets it. */
  predicate ColumnsCreated(ls: seq<Labeled>) {
    && (exists k :: 0 <= k < |ls| && ls[k].unique.Some?)
    && (exists k :: 0 <= k < |ls| && ls[k].crossDonor.Some?)
    && (exists k :: 0 <= k < |ls| && ls[k].crossEpitope.Some?)
  }

  /** The table classification as written. It fails in two ways. The reindex
      fails whenever the reducer dropped a row, because the dropped row's id is no
      longer among the classified rows. The merge then reads each of the three
      label columns, and it fails when no group created one of them. */
  function ClassifyAllAsWritten(df: seq<Row>, cfg: Config): (o: Option<Classification>)
    ensures var rows := ClassifyGroups(df, cfg, GroupKeys(df)).rows;
      o.None? <==>
        || (exists i :: 0 <= i < |df| && Lookup(rows, df[i].id).None?)
        || !ColumnsCreated(rows)
    ensures o.Some? ==> |o.value.rows| == |df|
  {
    var keys := GroupKeys(df);
    var b := ClassifyGroups(df, cfg, keys);
    match ReindexAsWritten(b.rows, df)
    case None => None
    case Some(cl) =>
      if !ColumnsCreated(b.rows) then None
      else Some(Classification(LabelColumns(cfg.subset), WriteAligned(df, cfg, cl), b.removed, b.emptyEpitope))
  }

  /** Writes the labels of the aligned classified rows `cl` into the subset rows of
      the table; every other row stays unlabelled. */
  function WriteAligned(df: seq<Row>, cfg: Config, cl: seq<Labeled>): (rows: seq<Labeled>)
    requires |cl| == |df|
    ensures |rows| == |df|
    ensures forall i :: 0 <= i < |df| ==> rows[i].row == df[i]
    ensures forall i :: 0 <= i < |df| && !SubsetMember(df[i], cfg) ==> rows[i] == Unlabeled(df[i])
    ensures forall i :: 0 <= i < |df| && SubsetMember(df[i], cfg) ==>
      rows[i] == Labeled(df[i], cl[i].unique, cl[i].crossDonor, cl[i].crossEpitope)
  {
    seq(|df|, i requires 0 <= i < |df| =>
      if SubsetMember(df[i], cfg) then Labeled(df[i], cl[i].unique, cl[i].crossDonor, cl[i].crossEpitope)
      else Unlabeled(df[i]))
  }

  /** When the reindex as written succeeds, writing its aligned rows into the
      table gives exactly the corrected merge. */
  lemma AlignedWriteIsMerge(df: seq<Row>, cfg: Config, all: seq<Labeled>)
    requires ReindexAsWritten(all, df).Some?
    ensures WriteAligned(df, cfg, ReindexAsWritten(all, df).value) == MergeRows(df, cfg, all)
  {
    var cl := ReindexAsWritten(all, df).value;
    forall i | 0 <= i < |df|
      ensures WriteAligned(df, cfg, cl)[i] == MergeRows(df, cfg, all)[i]
    {
      assert MergeRows(df, cfg, all)[i] == MergeRow(df[i], cfg, all);
    }
  }

  /** Wherever the classification as written does not fail, it returns exactly
      the corrected classification. */
  lemma AsWrittenAgreesWhenDefined(df: seq<Row>, cfg: Config)
    requires ClassifyAllAsWritten(df, cfg).Some?
    ensures ClassifyAllAsWritten(df, cfg).value == ClassifyAll(df, cfg)
  {
    var b := ClassifyGroups(df, cfg, GroupKeys(df));
    var o := ReindexAsWritten(b.rows, df);
    assert o.Some?;
    assert ClassifyAllAsWritten(df, cfg).value ==
      Classification(LabelColumns(cfg.subset), WriteAligned(df, cfg, o.value), b.removed, b.emptyEpitope);
    AlignedWriteIsMerge(df, cfg, b.rows);
  }

  /** A table row the reducer dropped is not found by id among its group's
      classified rows. */
  lemma DroppedRowNotFound(df: seq<Row>, cfg: Config, i: nat)
    requires DistinctIds(df) && i < |df|
    requires Outranked(GroupOf(df, df[i].sequenceId), cfg, df[i])
    ensures Lookup(ClassifyGroup(GroupOf(df, df[i].sequenceId), cfg).rows, df[i].id).None?
  {
    var rows := ClassifyGroup(GroupOf(df, df[i].sequenceId), cfg).rows;
    SurvivorIffNotOutranked(df, cfg, i);
    GroupRowsInTable(df, cfg, df[i].sequenceId);
    AbsentRowNotFound(df, i, rows);
  }

  /** When the reducer drops a row of the table, the reindex as written fails. */
  lemma AsWrittenFailsOnDroppedRow(df: seq<Row>, cfg: Config, i: nat)
    requires DistinctIds(df) && i < |df|
    requires Outranked(GroupOf(df, df[i].sequenceId), cfg, df[i])
    ensures ClassifyAllAsWritten(df, cfg).None?
  {
    LookupFindsOwnGroup(df, cfg, GroupKeys(df), i);
    DroppedRowNotFound(df, cfg, i);
  }

  // ---- Label columns no group creates --------------------------------------------

  /** Every labelled row of the classified groups sets a label cell only on a row
      of that label's mask. */
  lemma {:induction false} BatchLabelsOnMasks(df: seq<Row>, cfg: Config, keys: seq<string>)
    ensures AllOnMasks(ClassifyGroups(df, cfg, keys).rows, cfg)
  {
    if |keys| > 0 {
      var front := keys[..|keys| - 1];
      var key := keys[|keys| - 1];
      BatchLabelsOnMasks(df, cfg, front);
      GroupLabelsOnMasks(GroupOf(df, key), cfg);
      OnMasksConcat(ClassifyGroups(df, cfg, front).rows, ClassifyGroup(GroupOf(df, key), cfg).rows, cfg);
    }
  }

  lemma OnMasksConcat(a: seq<Labeled>, b: seq<Labeled>, cfg: Config)
    requires AllOnMasks(a, cfg) && AllOnMasks(b, cfg)
    ensures AllOnMasks(a + b, cfg)
  {
    forall k | 0 <= k < |a + b|
      ensures LabelsOnMasks((a + b)[k], cfg)
    {
      if k >= |a| {
        assert (a + b)[k] == b[k - |a|];
      }
    }
  }

  /** Labelled rows drawn from a table with no qualifying row leave both broadcast
      columns unset, and rows drawn from a table with no subset row leave the
      uniqueness column unset. */
  lemma NoMaskNoColumn(df: seq<Row>, cfg: Config, ls: seq<Labeled>)
    requires AllOnMasks(ls, cfg)
    requires forall l :: l in ls ==> l.row in df
    ensures (forall i :: 0 <= i < |df| ==> !Qualifying(df[i], cfg)) ==>
      forall k :: 0 <= k < |ls| ==> ls[k].crossDonor.None? && ls[k].crossEpitope.None?
    ensures (forall i :: 0 <= i < |df| ==> !SubsetMember(df[i], cfg)) ==>
      forall k :: 0 <= k < |ls| ==> ls[k].unique.None?
  {
    forall k | 0 <= k < |ls|
      ensures exists i :: 0 <= i < |df| && df[i] == ls[k].row
    {
      assert ls[k] in ls;
    }
  }

  /** A table in which no row qualifies, or no row is a subset member, makes the
      classification as written fail: some label column is never created. */
  lemma AsWrittenFailsWithoutColumn(df: seq<Row>, cfg: Config)
    requires || (forall i :: 0 <= i < |df| ==> !Qualifying(df[i], cfg))
             || (forall i :: 0 <= i < |df| ==> !SubsetMember(df[i], cfg))
    ensures ClassifyAllAsWritten(df, cfg).None?
  {
    var rows := ClassifyGroups(df, cfg, GroupKeys(df)).rows;
    BatchLabelsOnMasks(df, cfg, GroupKeys(df));
    NoColumnWithoutMask(df, cfg, rows);
  }

  /** Labelled rows drawn, on their masks, from a table with no qualifying row or
      no subset row do not create all three label columns. */
  lemma NoColumnWithoutMask(df: seq<Row>, cfg: Config, ls: seq<Labeled>)
    requires AllOnMasks(ls, cfg)
    requires forall l :: l in ls ==> l.row in df
    requires || (forall i :: 0 <= i < |df| ==> !Qualifying(df[i], cfg))
             || (forall i :: 0 <= i < |df| ==> !SubsetMember(df[i], cfg))
    ensures !ColumnsCreated(ls)
  {
    NoMaskNoColumn(df, cfg, ls);
  }

  /** The merge that leaves a missing label column unset instead: with distinct
      row ids, a broadcast label lands only on a qualifying row and a uniqueness
      label only on a subset row. */
  lemma MergedLabelsOnMasks(df: seq<Row>, cfg: Config)
    requires DistinctIds(df)
    ensures AllOnMasks(ClassifyAll(df, cfg).rows, cfg)
  {
    var all := ClassifyGroups(df, cfg, GroupKeys(df)).rows;
    var out := ClassifyAll(df, cfg).rows;
    BatchLabelsOnMasks(df, cfg, GroupKeys(df));
    forall i | 0 <= i < |df|
      ensures LabelsOnMasks(out[i], cfg)
    {
      assert out[i] == MergeRow(df[i], cfg, all);
      MergeRowOnMasks(df, i, cfg, all);
    }
  }

  /** Merging table row `df[i]` copies the labels of the labelled row with its id,
      which with distinct ids is `df[i]` itself, so the labels stay on its masks. */
  lemma MergeRowOnMasks(df: seq<Row>, i: nat, cfg: Config, all: seq<Labeled>)
    requires DistinctIds(df) && i < |df|
    requires AllOnMasks(all, cfg)
    requires forall l :: l in all ==> l.row in df
    ensures LabelsOnMasks(MergeRow(df[i], cfg, all), cfg)
  {
    if SubsetMember(df[i], cfg) {
      var o := Lookup(all, df[i].id);
      if o.Some? {
        var k :| 0 <= k < |all| && all[k] == o.value;
        assert LabelsOnMasks(all[k], cfg);
        if all[k].row != df[i] {
          OtherRowOtherId(df, i, all[k].row);
        }
      }
    }
  }

  /** Without any qualifying row, the merge leaves both broadcast columns unset on
      every row, where the classification as written fails instead. */
  lemma MergeWithoutQualifierUnset(df: seq<Row>, cfg: Config)
    requires forall i :: 0 <= i < |df| ==> !Qualifying(df[i], cfg)
    ensures forall i :: 0 <= i < |df| ==>
      ClassifyAll(df, cfg).rows[i].crossDonor.None? && ClassifyAll(df, cfg).rows[i].crossEpitope.None?
  {
    var all := ClassifyGroups(df, cfg, GroupKeys(df)).rows;
    BatchLabelsOnMasks(df, cfg, GroupKeys(df));
    NoMaskNoColumn(df, cfg, all);
    assert ClassifyAll(df, cfg).rows == MergeRows(df, cfg, all);
    forall i | 0 <= i < |df|
      ensures MergeRows(df, cfg, all)[i].crossDonor.None? && MergeRows(df, cfg, all)[i].crossEpitope.None?
    {
      MergeRowKeepsUnset(df[i], cfg, all);
    }
  }

  /** Merging against labelled rows with both broadcast cells unset leaves them
      unset. */
  lemma MergeRowKeepsUnset(r: Row, cfg: Config, all: seq<Labeled>)
    requires forall k :: 0 <= k < |all| ==> all[k].crossDonor.None? && all[k].crossEpitope.None?
    ensures MergeRow(r, cfg, all).crossDonor.None? && MergeRow(r, cfg, all).crossEpitope.None?
  {
    var o := Lookup(all, r.id);
    if o.Some? {
      var k :| 0 <= k < |all| && all[k] == o.value;
    }
  }
}

=== FILE: text.dfy ===
/**
 String and sequence utilities the classifier relies on: whitespace stripping
 as the string accessor's `strip` does it, and the first-appearance list of
 distinct values that a column's `unique` returns.
 */
module Text {

  /** The ASCII characters Python's `str.strip` treats as whitespace: tab, line
      feed, vertical tab, form feed and carriage return (U+0009 to U+000D), the
      four information separators U+001C to U+001F, and space (U+0020). */
  predicate IsSpace(c: char) {
    ('\t' <= c <= '\r') || ('\U{1C}' <= c <= ' ')
  }

  /** Drops leading whitespace. */
  function StripLeft(s: string): (t: string)
    ensures |t| <= |s| && t == s[|s| - |t|..]
    ensures forall k :: 0 <= k < |s| - |t| ==> IsSpace(s[k])
    ensures |t| > 0 ==> !IsSpace(t[0])
  {
    if |s| > 0 && IsSpace(s[0]) then StripLeft(s[1..]) else s
  }

  /** Drops trailing whitespace. */
  function StripRight(s: string): (t: string)
    ensures |t| <= |s| && t == s[..|t|]
    ensures forall k :: |t| <= k < |s| ==> IsSpace(s[k])
    ensures |t| > 0 ==> !IsSpace(t[|t| - 1])
  {
    if |s| > 0 && IsSpace(s[|s| - 1]) then StripRight(s[..|s| - 1]) else s
  }

  /** Drops leading and trailing whitespace. */
  function Trim(s: string): string {
    StripRight(StripLeft(s))
  }

  /** `t` is the slice `s[lo..hi]`, everything cut away on either side is
      whitespace, and a non-empty slice starts and ends with a non-whitespace
      character. */
  predicate InnerSlice(s: string, t: string, lo: int, hi: int) {
    && 0 <= lo <= hi <= |s| && t == s[lo..hi]
    && (forall k :: 0 <= k < lo ==> IsSpace(s[k]))
    && (forall k :: hi <= k < |s| ==> IsSpace(s[k]))
    && (lo < hi ==> !IsSpace(s[lo]) && !IsSpace(s[hi - 1]))
  }

  /** The result of trimming is a slice of the input, with only whitespace cut
      away on either side, that neither starts nor ends with whitespace. */
  lemma {:induction false} TrimIsInnerSlice(s: string)
    ensures exists lo, hi :: InnerSlice(s, Trim(s), lo, hi)
    ensures |Trim(s)| > 0 ==> !IsSpace(Trim(s)[0]) && !IsSpace(Trim(s)[|Trim(s)| - 1])
  {
    var l := StripLeft(s);
    var t := StripRight(l);
    var lo := |s| - |l|;
    var hi := lo + |t|;
    assert t == l[..|t|];
    assert t == s[lo..hi];
    forall k | hi <= k < |s|
      ensures IsSpace(s[k])
    {
      assert s[k] == l[k - lo];
    }
    if |t| > 0 {
      assert t[0] == l[0] == s[lo];
      assert t[|t| - 1] == s[hi - 1];
    }
    assert Trim(s) == t;
    assert InnerSlice(s, Trim(s), lo, hi);
  }

  /** A string that neither starts nor ends with whitespace is its own trim. */
  lemma {:induction false} TrimFixesTrimmed(t: string)
    requires |t| > 0 ==> !IsSpace(t[0]) && !IsSpace(t[|t| - 1])
    ensures Trim(t) == t
  {
    if |t| > 0 {
      assert StripLeft(t) == t;
      assert StripRight(t) == t;
    }
  }

  /** Trimming a string that is already trimmed changes nothing. */
  lemma {:induction false} TrimIdempotent(s: string)
    ensures Trim(Trim(s)) == Trim(s)
  {
    TrimIsInnerSlice(s);
    TrimFixesTrimmed(Trim(s));
  }

  /** A string is trimmed to nothing exactly when it is all whitespace. */
  lemma {:induction false} TrimEmptyIffAllSpace(s: string)
    ensures Trim(s) == [] <==> forall k :: 0 <= k < |s| ==> IsSpace(s[k])
  {
    if Trim(s) != [] {
      TrimIsInnerSlice(s);
    }
  }

  /** A string with a non-whitespace character is not trimmed to nothing. */
  lemma {:induction false} TrimKeepsNonSpace(s: string, k: nat)
    requires k < |s| && !IsSpace(s[k])
    ensures Trim(s) != []
  {
    TrimEmptyIffAllSpace(s);
  }

  predicate NoDuplicates(xs: seq<string>) {
    forall i, j :: 0 <= i < j < |xs| ==> xs[i] != xs[j]
  }

  /** The distinct values of `xs` in order of first appearance. */
  function Distinct(xs: seq<string>): (d: seq<string>)
    ensures NoDuplicates(d)
    ensures forall x :: x in d <==> x in xs
    ensures |d| <= |xs|
    ensures |xs| > 0 ==> |d| > 0 && d[0] == xs[0]
  {
    if |xs| == 0 then []
    else
      var d := Distinct(xs[..|xs| - 1]);
      var x := xs[|xs| - 1];
      assert forall y :: y in xs <==> y in xs[..|xs| - 1] || y == x by {
        assert xs == xs[..|xs| - 1] + [x];
      }
      if |xs| > 1 then
        assert xs[..|xs| - 1][0] == xs[0];
        if x in d then d else d + [x]
      else
        [x]
  }

  /** `Distinct` keeps values in the order in which they first occur: a value that
      first occurs before another also comes before it in the result. */
  lemma {:induction false} DistinctFirstAppearanceOrder(xs: seq<string>, i: nat, j: nat)
    requires i < j < |Distinct(xs)|
    ensures exists a, b ::
      && 0 <= a < b < |xs|
      && xs[a] == Distinct(xs)[i]
      && xs[b] == Distinct(xs)[j]
      && (forall k :: 0 <= k < b ==> xs[k] != Distinct(xs)[j])
    decreases |xs|
  {
    var front := xs[..|xs| - 1];
    var x := xs[|xs| - 1];
    var d := Distinct(front);
    assert xs == front + [x];
    if j < |d| {
      DistinctFirstAppearanceOrder(front, i, j);
      var a, b :| 0 <= a < b < |front| && front[a] == d[i] && front[b] == d[j]
        && (forall k :: 0 <= k < b ==> front[k] != d[j]);
      assert xs[a] == d[i] && xs[b] == d[j];
    } else {
      assert Distinct(xs) == d + [x] && Distinct(xs)[j] == x;
      assert d[i] in front;
      var a :| 0 <= a < |front| && front[a] == d[i];
      assert x !in front;
      assert xs[a] == Distinct(xs)[i];
      assert forall k :: 0 <= k < |xs| - 1 ==> xs[k] == front[k];
    }
  }
}
